=== FILE: README.md ===
# Library-Downloader core, modelled in Dafny

This project models the decision logic of `downloader.py` in the Library-Downloader
package, a script that installs the packages another Python script imports. It
covers five parts:

- **Retry loop (`install_with_retry`)** — module `Retry`. It tries the installer up
  to `retries` times, classifies each failure by its exit code (1, 2, 3 or other),
  sleeps `2 ** attempt` seconds after every failure, and reports once when every
  attempt failed.
- **Requirement comments (`extract_version_from_comments`)** — module
  `Requirements`. It runs `re.findall` with the pattern
  `#\s*Required:\s*(\S+)([<>=!]+)(\S+)` and folds the tuples into a dict. A
  matcher written for this one pattern reproduces the choices of Python's
  backtracking engine: greedy group 1, leftmost non-overlapping matches, later
  tuples overwriting earlier ones.
- **Compatibility check (`is_python_compatible`)** — module `Compat`. Versions are
  an abstract ordered type; `packaging.version.parse` is a parameter.
- **Import scan (`start_library_download`, lines 214-222)** — module
  `ImportScan`. Its `str.startswith` test is `ImportScan.IsImportLine`. The
  `str.splitlines`, `str.strip`, `str.split()` and `split('.')[0]` semantics the
  scan relies on live in module `PyStr`.
- **`create_virtualenv` and `install_dependencies`** — module `Venv`. This covers
  the `os.path.join` paths of the activation script and of pip on `nt` and POSIX
  systems, and the sequence of observable steps: venv creation, the
  missing-script popup, the pip run, the pip-failure popup and the
  instructions popup.

The file system, the two subprocesses and the installer are oracles passed in as
parameters:

- `exitCode` gives the installer's exit code for each attempt number.
- `Env` says which paths exist before and after `python -m venv`, and gives the
  exit codes of the venv creation and of pip.

Popups are recorded as actions that carry the path they show but not their
message text. Log lines are not modelled.

## Model

| member | source | states |
|---|---|---|
| Retry.Classify | downloader.py:60-75 | Each nonzero exit code falls in exactly one class: 1 is the network/pip advice, 2 the pip upgrade advice, 3 the dependency-conflict advice, and every other code the unknown-error message. |
| Retry.Loop | downloader.py:49-80 | The loop from attempt `k` makes at most `retries - k` attempts and none once the budget is spent. Every record but the last is a failure. |
| Retry.LoopRecords | downloader.py:49-77 | Record `i` of the loop from `k` is the outcome of attempt `k + i`. It is either the success that ends the loop, or a failure classified by that attempt's own code, with backoff `2^(k+i)`, giving up exactly when it is the last attempt of the budget. |
| Retry.LoopStops | downloader.py:49-55 | With budget left, the loop makes at least one attempt. It stops either when the budget is used up or right after an attempt that succeeded. |
| Retry.LoopSleepCount | downloader.py:77 | Every failed record is followed by one sleep, the last failure included. A final success is not. |
| Retry.LoopSleepValues | downloader.py:77 | The `i`-th sleep of the loop from attempt `k` lasts `2^(k+i)` seconds. |
| Retry.LoopReports | downloader.py:78-80 | The "failed after N attempts" report appears once when attempts `k .. retries-1` all fail and never otherwise. |
| Retry.InstallWithRetry | downloader.py:48-80 | The installer is tried at most `retries` times, at least once when the budget is positive, and attempt `i` is recorded as a success iff the installer's exit code for it is 0. |
| Retry.RetryAttempts | downloader.py:48-75 | `install_with_retry` invokes the installer at most `retries` times (never when `retries <= 0`). Invocation `i` is attempt `i`, and every attempt but the last failed. The loop ends at a success or when the budget is spent. |
| Retry.RetryBackoff | downloader.py:77 | The sleeps are 1, 2, 4, ... seconds, each twice the previous, one per failure, the last failure included. |
| Retry.RetryReport | downloader.py:78-80 | The give-up report is made exactly once iff the budget is positive and every attempt in it fails. |
| Retry.AlwaysConflicting | downloader.py:48-80 | With three attempts of an installer that always exits 3, there are three dependency-conflict failures with backoffs 1, 2 and 4, and only the last one gives up. |
| PyStr.SkipSpace | downloader.py:21 | `\s*` stops at the first non-whitespace character after `i`, or at the end, having passed only whitespace. |
| PyStr.TokenEnd | downloader.py:21 | `\S+` can extend from `i` exactly to the first whitespace character or the end. |
| PyStr.LineEnd | downloader.py:217 | A line from `i` ends at the first line boundary at or after `i`, or at the end of the text, and holds no boundary before that. |
| PyStr.SplitLines | downloader.py:217 | `splitlines()` yields lines that hold no line boundary, and none at all for an empty text. |
| PyStr.SplitLinesTerminated | downloader.py:217 | Splitting the lines of a text, each followed by `\n`, gives back exactly those lines, empty ones included. |
| PyStr.SplitLinesSingle | downloader.py:217 | A non-empty text with no line boundary is a single line, kept although no boundary ends it. |
| PyStr.SplitLinesBreak | downloader.py:217 | A boundary character that is not the `\r` of a `\r\n` pair ends the first line, and the lines of the rest follow it. |
| PyStr.SplitLinesCrLf | downloader.py:217 | `\r\n` is one boundary: it ends the first line without producing an empty line, and the lines of the rest follow. |
| PyStr.UnterminatedLastLine | downloader.py:217 | `first\nlast` splits into exactly `[first, last]`, so a script's unterminated last line is scanned. |
| PyStr.Strip | downloader.py:217 | `strip()` returns a contiguous part of the line that neither starts nor ends with whitespace, and only whitespace is cut on either side. |
| PyStr.StripKeeps | downloader.py:217 | `strip()` leaves unchanged a non-empty line that neither starts nor ends with whitespace. |
| PyStr.Split | downloader.py:220 | Every word `split()` yields is non-empty and holds no whitespace. |
| PyStr.BeforeDot | downloader.py:220 | `split('.')[0]` is a prefix of the word that holds no `.` and stops at the word's first `.` or end. |
| PyStr.BeforeDotWhole | downloader.py:220 | `split('.')[0]` of a word with no `.` is the whole word. |
| PyStr.SplitTwoWords | downloader.py:220 | For `w1 <space> w2 rest`, `split()` starts with `w1, w2` and continues with the words of `rest`. |
| Requirements.SplitToken | downloader.py:21 | A split of a `\S+` token into the three groups leaves each group non-empty, with group 2 made only of `[<>=!]`. With greedy group 1, the operator group is one character and no operator character follows it before the token's last character. |
| Requirements.MatchAt | downloader.py:21 | Whatever is reported at a position is a match of the pattern there. As written, the operator group is one character wide and the version holds no operator character but possibly its last. |
| Requirements.MatchBoundaries | downloader.py:21 | In any match, both `\s*` take all the whitespace there is, and the three groups lie inside a single `\S` token. |
| Requirements.SplitTokenChoice | downloader.py:21 | Any split of a token into the three groups is found. The split reported is one the engine tries no later than it: greedy group 1 ends at or after it, lazy group 1 at or before it. |
| Requirements.MatchAtComplete | downloader.py:21 | Any match at a position makes the matcher report one there, tried no later by the backtracking engine. |
| Requirements.MatchAtFirstTried | downloader.py:21 | The matcher reports exactly the engine's first successful match at a position, and reports nothing iff no match exists there. |
| Requirements.Scan | downloader.py:22 | Every match the scan collects comes from the table, at a position at or after where the scan started. |
| Requirements.ScanLeftmost | downloader.py:22 | The scan yields the leftmost non-overlapping sequence of matches. |
| Requirements.LeftmostIsScan | downloader.py:22 | A leftmost non-overlapping sequence of matches is unique: it is the scan. |
| Requirements.FindAllIsLeftmost | downloader.py:22 | `re.findall` yields exactly the leftmost non-overlapping matches (both directions). |
| Requirements.FindAll | downloader.py:21-22 | Each tuple has a non-space package, a non-empty run of `[<>=!]` and a non-space version. As written, every operator is exactly one character. |
| Requirements.ToDictLastWins | downloader.py:23 | The dict comprehension has a key for every package in the tuples. Each key maps to the operator and version of the last tuple with that package. |
| Requirements.ExtractVersionRequirements | downloader.py:20-23 | As written, every entry of the dict is a non-empty, whitespace-free package, a non-empty run of `[<>=!]` and a non-empty, whitespace-free version, and the operator is always exactly one character. |
| Requirements.ExtractIntended | downloader.py:20-23 | With group 1 lazy, every entry is a non-empty, whitespace-free package, a non-empty run of `[<>=!]` and a non-empty, whitespace-free version. |
| Requirements.ExtractionEntries | downloader.py:20-23 | Each entry of the extracted dict comes from the last match for its package, every match's package is a key, and every operator in the dict is one character of `[<>=!]`. |
| Requirements.SoleMatch | downloader.py:22-23 | A match at the start of a text that no later `#` follows is the only match `findall` yields, and the dict holds exactly the entry of its groups. |
| Requirements.GreedySole | downloader.py:20-23 | As written, take a text that opens with `# Required: ` followed by a token that splits as `pkg`, then one operator character `op`, then a version `ver` with no operator character before its last character, and with no `#` after the token. It yields exactly `{pkg: (op, ver)}`: group 1 runs up to the last operator character. |
| Requirements.LazySole | downloader.py:20-23 | With group 1 lazy, take a text that opens with `# Required: ` followed by a token that splits as a `pkg` with no operator character, then an operator run `op`, then a version `ver` not starting with one, and with no `#` after the token. It yields exactly `{pkg: (op, ver)}`: the split falls at the first operator character. |
| Requirements.AsWrittenLineMatch | downloader.py:21 | On a script opening with `# Required: <pkg><op><ver>` followed by whitespace or nothing, with `pkg`, `op` and `ver` non-empty and free of whitespace, `op` a run of `[<>=!]`, and no operator character in `ver`, greedy group 1 runs up to the last operator character, leaving only that character as the operator. |
| Requirements.AsWrittenExtraction | downloader.py:20-23 | As written, take a script opening with `# Required: <pkg><op><ver>`, then whitespace or nothing, and holding no further `#`, with `pkg`, `op` and `ver` non-empty and free of whitespace, `op` a run of `[<>=!]`, and no operator character in `ver`. It yields a single entry. Its key is `pkg` plus all but the last operator character, and it maps to that last character and `ver`. |
| Requirements.NumpyExample | downloader.py:20-23 | As written, a script opening with `# Required: numpy>=1.2`, then whitespace or nothing, and holding no further `#` yields `{'numpy>': ('=', '1.2')}`. |
| Requirements.GreedyLosesLongOperators | downloader.py:20-23 | As written, a requirement with a two-character operator such as `>=` is never extracted as `pkg -> (op, ver)`. |
| Requirements.IntendedLineMatch | downloader.py:21 | With a lazy group 1, a script opening with `# Required: <pkg><op><ver>` followed by whitespace or nothing, with `pkg`, `op` and `ver` non-empty and free of whitespace, `op` a run of `[<>=!]`, no operator character in `pkg`, and `ver` not starting with one, is matched along its three parts. |
| Requirements.IntendedRoundTrip | downloader.py:20-23 | With a lazy group 1, take a script opening with `# Required: <pkg><op><ver>`, then whitespace or nothing, and holding no further `#`, with `pkg`, `op` and `ver` non-empty and free of whitespace, `op` a run of `[<>=!]`. It yields exactly `{pkg: (op, ver)}` when `pkg` holds no operator character and `ver` does not start with one. |
| Compat.Compare | downloader.py:33-44 | A comparison can fail only under one of the five known operators; any other operator holds. |
| Compat.IsPythonCompatible | downloader.py:26-45 | No requirement means compatible. The result is an error exactly when the required version does not parse. Otherwise `==` is equality of the versions, `>=`, `<=`, `>` and `<` are the version order, and any other operator is compatible. |
| Compat.ComparisonsAgree | downloader.py:33-44 | On a strict total order, exactly one of `<`, `==`, `>` holds, and `==` holds iff neither version is below the other. `>=` is `>` or `==`, and `<=` is `<` or `==`. For every operator the comparison agrees with an independent sign table (`Accepts` of `Sign`). |
| Compat.ExtractedRequirementCompares | downloader.py:20-45 | Fed from the extraction as written, the check never sees `==`, `>=` or `<=`. It compares only under `<` or `>` and passes for every other operator. |
| ImportScan.ImportStatements | downloader.py:217 | There are no more import statements than lines. |
| ImportScan.ImportStatementsAppend | downloader.py:217 | The statements of two blocks of lines are those of the first followed by those of the second. A single line contributes its stripped text iff it starts with `import` or `from`. So the statements are the stripped import lines, in line order. |
| ImportScan.PackageOf | downloader.py:220 | A statement yields no name (the `IndexError`) iff it has fewer than two words. Otherwise the name is the second word's prefix before its first `.`, or the whole word when it has none. |
| ImportScan.LineContribution | downloader.py:217-222 | A line stops the scan with `IndexError` iff it is a one-word import line, and then it appends nothing. Otherwise it contributes at most one name, only from an import line, and never a requirement key. |
| ImportScan.Collect | downloader.py:219-222 | The install list gains at most one name per statement. |
| ImportScan.ScanImports | downloader.py:214-222 | The scan raises `IndexError` iff some line of the script stops it, and it never appends a requirement key. |
| ImportScan.ScanLinesByLine | downloader.py:217-222 | The scan of a script is each line's own contribution in order: its name, nothing, or the error that ends the scan. |
| ImportScan.ScanLinesAppend | downloader.py:217-222 | Scanning two blocks of lines is scanning the first, then the second. |
| ImportScan.ScanLinesFails | downloader.py:219-220 | The scan raises `IndexError` iff some line starting with `import` or `from` is a single word. |
| ImportScan.ScanLinesNames | downloader.py:219-222 | When the scan completes, a name is listed iff some scanned line yields it and it is not a requirement key. |
| ImportScan.IndentedImportSkipped | downloader.py:217 | An indented `import` line is not scanned. |
| ImportScan.PackageOfSecondWord | downloader.py:220 | The package of `w1 <space> w2 rest` is `w2` cut at its first `.`. |
| ImportScan.ImportantIsScanned | downloader.py:217-220 | `important = 1` starts with `import`, so it is scanned, and `=` is taken as a package name. |
| ImportScan.BareImportFails | downloader.py:220 | A scanned line of one word, such as a bare `import`, raises `IndexError` before anything is appended. |
| ImportScan.CollectSkipsKeys | downloader.py:221-222 | No requirement key is ever appended to the install list. |
| ImportScan.SecondLineListed | downloader.py:217-222 | A two-line script whose second line is its only import line lists exactly that line's package, unless the package is a requirement key. |
| ImportScan.PackagesToInstall | downloader.py:214-222 | As written, the scan is fed the keys of the greedy extraction, and it lists none of those keys. |
| ImportScan.PackagesToInstallIntended | downloader.py:214-222 | With the corrected extraction, no package whose version a comment requires is listed. |
| ImportScan.RequiredPackageStillListed | downloader.py:214-222 | Take a plain package name `pkg` (no `.`, `#` or operator character), with `pkg`, `op` and `ver` non-empty and free of whitespace, `op` a run of `[<>=!]`, an operator of two or more characters, and no operator character in `ver`. As written, `# Required: <pkg><op><ver>` followed by `import <pkg>` still lists `pkg` for installation. With the corrected extraction the same script lists nothing. |
| ImportScan.NumpyListedAnyway | downloader.py:214-222 | `# Required: numpy>=1.2` followed by `import numpy` lists `numpy` as written and nothing when corrected. |
| Venv.JoinName | downloader.py:98-100 | `os.path.join(path, name)` ends in `name` and begins with `path`. At most one separator goes between them, and it is inserted iff `path` is non-empty, does not end in a separator, and is not a bare `nt` drive. |
| Venv.ActivationScript | downloader.py:97-100 | The activation script path begins with `venv_dir`. |
| Venv.PipPath | downloader.py:121 | The pip path begins with `venv_dir`. |
| Venv.ScriptAndPipAreSiblings | downloader.py:97-121 | The activation script and pip sit in the same `Scripts`/`bin` directory, with leaf names `activate.bat`/`activate` and `pip`, for every `venv_dir`. |
| Venv.BinDirIsChild | downloader.py:98-100 | The `Scripts`/`bin` directory extends `venv_dir`. Its leaf is `Scripts`/`bin` unless `venv_dir` is a bare drive. Its parent is `venv_dir` when a separator is inserted. |
| Venv.PlainDirectoryLayout | downloader.py:97-121 | For a directory with no trailing separator, such as `venv`, the paths are `venv/bin/activate` and `venv/bin/pip` on POSIX, and `venv\Scripts\activate.bat` and `venv\Scripts\pip` on `nt`. |
| Venv.BareDriveLayout | downloader.py:98 | A bare drive `C:` gives `C:Scripts\activate.bat`, without a separator after the drive. |
| Venv.InstallDependencies | downloader.py:118-129 | pip runs once as `pip_path install dep...`, and a failure popup follows iff pip exits nonzero. |
| Venv.AfterCreation | downloader.py:102-116 | A missing activation script produces only its error popup, and that popup appears iff the script is missing. Once the script is found, the steps are exactly the optional install (pip, then its error popup iff pip fails) followed by one instructions popup. |
| Venv.Steps | downloader.py:83-116 | The venv is created iff the directory did not exist. Creation comes first and happens at most once. The call raises iff creation was needed and failed, and then nothing else happens. |
| Venv.StepsAfterCreation | downloader.py:88-116 | After any creation, a missing script shows its popup and the call stops; the popup appears iff the call returns and the script is missing. When the script is found, the whole call is the creation step, the optional install, then one instructions popup. pip runs iff requested and the script was found, always as `pip install deps...`, and its failure is reported iff pip failed. |
| Venv.CreateVirtualenv | downloader.py:83-129 | The venv is created iff the directory is missing, and the call raises iff that creation fails. Every pip run is the venv's pip with `install` and the given dependencies, or `requests flask` when none are given. |
| Venv.CreationInFront | downloader.py:88-113 | Putting venv creation steps in front of a run does not change whether pip runs, its command line, or the error popup. |
| Venv.PipFailureStillInstructs | downloader.py:112-129 | A failing pip is reported, the call still returns normally, and the instructions popup still comes last. |
| Venv.CreatedOnce | downloader.py:88-92 | A call on a missing directory whose creation succeeds creates it, and a second call that finds it in place does not create it again. |
| Venv.DefaultDependencies | downloader.py:84-85 | With no dependency list and `install_deps=True`, pip runs as `pip install requests flask`. |

## Left out

- Effects. The installer, `python -m venv`, pip, `os.path.exists` and `os.name` are parameters, not effects. The model does not reproduce logging, `print`, the `plyer` notifications, the Tk prompt, or the messages' text.
- `time.sleep` is recorded as its duration. Nothing waits.
- Sleep after the last failure. The loop sleeps at line 77 before the last-attempt test at line 78, so the last failure is also followed by a sleep. Three failures sleep 1, 2 and 4 seconds (`Retry.RetryBackoff`).
- `install_with_retry`'s `package_name` is not a parameter. It is pip's argument at line 52 and appears in the messages. Its effect on pip is absorbed into the `exitCode` oracle, which gives pip's exit code for each attempt.
- Exceptions other than `CalledProcessError` are not modelled. An example is `FileNotFoundError` when the pip executable is missing.
- `is_python_compatible` takes the running version as a parameter instead of reading `sys.version_info`. `packaging.version.parse` is a parameter returning `None` for `InvalidVersion`. `Compat.IsPythonCompatible` does not model the ordering rules of PEP 440 versions, because that order belongs to `packaging`; it only assumes a strict total order. A version stands for its comparison key, as `packaging` compares `Version` objects by key, so `==` is equality of keys.
- `check_and_install_package`, `is_standard_library`, `show_virtualenv_prompt` and `reinstall_libraries_in_virtualenv` are left out. They are glue around calls into `importlib`, Tk and the modelled functions. `check_and_install_package` also refers to an undefined `e` at line 157.
- The file reading and the final install loop of `start_library_download` (lines 204-211 and 224-225) are left out. The module-level `packages_to_install` list is modelled as the scan's result. The model starts from an empty list.
- `__init__.py` is not part of this model.
- Venv.JoinName: models `os.path.join` only for components that are neither absolute nor drive-qualified, since the code joins only the literals `Scripts`, `bin`, `activate.bat`, `activate` and `pip`. A UNC or drive-relative `venv_dir` on `nt` takes the general rule: a separator is inserted unless the path is empty, ends in a separator, or is a bare drive. This differs from `ntpath.join` only for a UNC drive that ends in `:`, where `ntpath.join` inserts no separator.
- Venv.CreateVirtualenv: its contract states creation, raising and the pip command line. It does not restate which popups are shown or when pip runs. Those are stated for every script and pip path on `Venv.StepsAfterCreation`, which `CreateVirtualenv` instantiates with `Venv.ActivationScript` and `Venv.PipPath`.
- Defaults. `install_with_retry`'s `retries=3` (line 48) and `create_virtualenv`'s `venv_dir="venv"` and `install_deps=False` (line 83) are explicit parameters, and the model covers every value. The script's own calls at lines 151, 154 and 188 use only these defaults, so there `create_virtualenv` never runs pip. `dependencies=None` is modelled as `Option.None` (`Venv.DefaultDependencies`).
- Python's `re` engine is modelled for this one pattern only, not as a general regular-expression matcher.

## Findings

| source | as written | input that shows it | evidently intended | confidence | as-written member | corrected member |
|---|---|---|---|---|---|---|
| downloader.py:21 | Group 1 `(\S+)` is greedy. It backtracks only as far as the last operator character, so it absorbs all but the last character of a multi-character operator. | `# Required: numpy>=1.2` gives `{'numpy>': ('=', '1.2')}` | `{'numpy': ('>=', '1.2')}`, the package with its full operator, as the dict's use as package names and `is_python_compatible`'s `>=`/`<=`/`==` branches expect | not executed; follows from the matching rules of Python's `re` | Requirements.AsWrittenExtraction | Requirements.IntendedRoundTrip |

The as-written `Requirements.ExtractVersionRequirements` is the one
`ImportScan.PackagesToInstall` uses, as line 214 does. The corrected extraction
is `Requirements.ExtractIntended`, with group 1 written `(\S+?)`. The consequences:

- `Requirements.NumpyExample` and `Requirements.GreedyLosesLongOperators` show the lost operators.
- `ImportScan.RequiredPackageStillListed` and `ImportScan.NumpyListedAnyway` show that, for a plain package name, a package whose version a comment requires is still listed for installation as written. With `ImportScan.PackagesToInstallIntended` it is not listed. A dotted requirement such as `a.b` never equals the scanned name `a`, so `import a.b` lists `a` under either extraction.
- `Compat.ExtractedRequirementCompares` shows that `is_python_compatible`, fed from the as-written extraction, never sees `==`, `>=` or `<=`. downloader.py never calls `is_python_compatible`, so this concerns a caller that would pass it an extracted requirement. Other inputs reach those branches.

=== FILE: compat.dfy ===
/**
  `is_python_compatible`: compare the running interpreter's version with a
  required (operator, version) pair. Versions are an abstract type `V` ordered
  by `less`, standing in for `packaging.version.Version`; `parse` stands in for
  `packaging.version.parse`, `None` meaning it raised `InvalidVersion`.
 */
module Compat {
  import opened Optional
  import Requirements

  /** `less` is irreflexive and transitive. */
  ghost predicate StrictOrder<V(!new)>(less: (V, V) -> bool) {
    && (forall x :: !less(x, x))
    && (forall x, y, z :: less(x, y) && less(y, z) ==> less(x, z))
  }

  /** A strict order in which any two distinct keys are comparable, as `packaging`'s version keys are. */
  ghost predicate StrictTotalOrder<V(!new)>(less: (V, V) -> bool) {
    && StrictOrder(less)
    && (forall x, y :: x == y || less(x, y) || less(y, x))
  }

  /**
    The comparison `running <op> required`. A version stands for its comparison
    key, so `==` is equality of keys and the other four use the key order `less`.
    Any operator but the five known ones holds.
   */
  function Compare<V(==)>(op: string, running: V, required: V, less: (V, V) -> bool): (r: bool)
    ensures !r ==> op in KnownOperators
  {
    if op == "==" then running == required
    else if op == ">=" then !less(running, required)
    else if op == "<=" then !less(required, running)
    else if op == ">" then less(required, running)
    else if op == "<" then less(running, required)
    else true
  }

  /** The operators for which the check makes a comparison. */
  const KnownOperators: set<string> := {"==", ">=", "<=", ">", "<"}

  /**
    `is_python_compatible(package, required)` for a running version `running`:
    compatible when nothing is required, `None` when the required version does not
    parse, otherwise the comparison the operator names, and compatible under any
    operator outside the known five.
   */
  function IsPythonCompatible<V(==)>(running: V, required: Option<(string, string)>,
                                     parse: string -> Option<V>, less: (V, V) -> bool): (r: Option<bool>)
    ensures required.None? ==> r == Some(true)
    ensures r.None? <==> required.Some? && parse(required.value.1).None?
    ensures r == Some(false) ==> required.value.0 in KnownOperators
    ensures required.Some? && parse(required.value.1).Some? ==>
      var (op, v) := (required.value.0, parse(required.value.1).value);
      && (op == "==" ==> r == Some(running == v))
      && (op == ">=" ==> r == Some(!less(running, v)))
      && (op == "<=" ==> r == Some(!less(v, running)))
      && (op == ">" ==> r == Some(less(v, running)))
      && (op == "<" ==> r == Some(less(running, v)))
      && (op !in KnownOperators ==> r == Some(true))
  {
    match required
    case None => Some(true)
    case Some((op, text)) =>
      match parse(text)
      case None => None
      case Some(v) => Some(Compare(op, running, v, less))
  }

  /**
    The sign of `running` against `required` under a total order: -1 below, 0
    equal, 1 above. An independent reading of the five operators follows.
   */
  function Sign<V(==)>(running: V, required: V, less: (V, V) -> bool): int {
    if less(running, required) then -1 else if running == required then 0 else 1
  }

  /** Which signs each operator accepts; an operator outside the five accepts every sign. */
  predicate Accepts(op: string, sign: int) {
    if op == "==" then sign == 0
    else if op == ">=" then sign >= 0
    else if op == "<=" then sign <= 0
    else if op == ">" then sign > 0
    else if op == "<" then sign < 0
    else true
  }

  /**
    On a strict total order the five comparisons agree with each other: exactly one
    of `<`, `==`, `>` holds, `==` holds exactly when neither key is below the other,
    `>=` is `>` or `==`, `<=` is `<` or `==`, and every operator accepts exactly the
    signs it names.
   */
  lemma {:induction false} ComparisonsAgree<V(!new)>(running: V, required: V, less: (V, V) -> bool)
    requires StrictTotalOrder(less)
    ensures var lt, eq, gt := Compare("<", running, required, less),
                              Compare("==", running, required, less),
                              Compare(">", running, required, less);
      && (lt || eq || gt)
      && !(lt && eq) && !(lt && gt) && !(eq && gt)
      && (eq <==> !less(running, required) && !less(required, running))
      && Compare(">=", running, required, less) == (gt || eq)
      && Compare("<=", running, required, less) == (lt || eq)
    ensures forall op :: Compare(op, running, required, less) == Accepts(op, Sign(running, required, less))
  {
  }

  /**
    Composed with extraction as written, a requirement only ever compares under
    `<` or `>`: every other operator that reaches the check is a single character
    outside the known ones, and the check passes.
   */
  lemma {:induction false} ExtractedRequirementCompares<V>(script: string, pkg: string, running: V,
                                        parse: string -> Option<V>, less: (V, V) -> bool)
    requires pkg in Requirements.ExtractVersionRequirements(script)
    ensures var (op, text) := Requirements.ExtractVersionRequirements(script)[pkg];
      && op !in {"==", ">=", "<="}
      && IsPythonCompatible(running, Some((op, text)), parse, less)
         == match parse(text)
            case None => None
            case Some(v) => Some(if op == "<" then less(running, v)
                                 else if op == ">" then less(v, running)
                                 else true)
  {
    Requirements.ExtractionEntries(script);
  }
}

=== FILE: importscan.dfy ===
/**
  The import scan of `start_library_download`: every line of the script whose
  unstripped text starts with `import` or `from` names a package, the second
  whitespace-separated word up to its first `.`; names that are keys of the
  extracted requirements are skipped, the rest are appended to the list of
  packages to install, in source order and with repetitions. A qualifying line
  with a single word makes `split()[1]` raise `IndexError`, which ends the scan
  with the names appended so far left in the list.
 */
module ImportScan {
  import opened Optional
  import opened PyStr
  import Requirements

  /** A line is scanned when its unstripped text starts with `import` or `from`. */
  predicate IsImportLine(line: string) {
    "import" <= line || "from" <= line
  }

  /**
    The import statements of `lines`: each line whose unstripped text starts with
    `import` or `from`, stripped of surrounding whitespace, in the order of the lines.
    `ImportStatementsAppend` states which lines are kept and in what order.
   */
  function ImportStatements(lines: seq<string>): (stmts: seq<string>)
    ensures |stmts| <= |lines|
  {
    if lines == [] then []
    else (if IsImportLine(lines[0]) then [Strip(lines[0])] else []) + ImportStatements(lines[1..])
  }

  /**
    The statements of two blocks of lines are those of the first block followed by
    those of the second; a single line gives its stripped text when it is scanned
    and nothing otherwise. Together these fix the statements of every script.
   */
  lemma {:induction false} ImportStatementsAppend(a: seq<string>, b: seq<string>)
    ensures ImportStatements(a + b) == ImportStatements(a) + ImportStatements(b)
    ensures |a| == 1 ==> ImportStatements(a) == if IsImportLine(a[0]) then [Strip(a[0])] else []
    decreases |a|
  {
    if a == [] {
      assert a + b == b;
    } else {
      var head := if IsImportLine(a[0]) then [Strip(a[0])] else [];
      assert (a + b)[0] == a[0];
      assert (a + b)[1..] == a[1..] + b;
      assert ImportStatements(a + b) == head + ImportStatements(a[1..] + b);
      ImportStatementsAppend(a[1..], b);
      assert head + (ImportStatements(a[1..]) + ImportStatements(b))
             == (head + ImportStatements(a[1..])) + ImportStatements(b);
      if |a| == 1 {
        assert a[1..] == [];
      }
    }
  }

  /** The package a statement names: its second word up to the first `.`, or `None` (the `IndexError`) when it has fewer than two words. */
  function PackageOf(stmt: string): (r: Option<string>)
    ensures r.None? <==> |Split(stmt)| < 2
    ensures r.Some? ==> '.' !in r.value && r.value <= Split(stmt)[1]
    ensures r.Some? ==> |r.value| == |Split(stmt)[1]| || Split(stmt)[1][|r.value|] == '.'
  {
    var words := Split(stmt);
    if |words| < 2 then None else Some(BeforeDot(words[1]))
  }

  /** What the loop leaves behind: every name it appended, and whether it stopped on `IndexError`. */
  datatype ScanResult = Packages(names: seq<string>) | IndexError(appended: seq<string>)
  {
    function Appended(): seq<string> {
      match this
      case Packages(names) => names
      case IndexError(appended) => appended
    }
  }

  /** Running the loop over `first` and then over `second`. */
  function Then(first: ScanResult, second: ScanResult): ScanResult {
    match first
    case IndexError(_) => first
    case Packages(names) =>
      match second
      case Packages(more) => Packages(names + more)
      case IndexError(more) => IndexError(names + more)
  }

  /**
    The loop over the statements: each statement's package is appended unless it
    is a requirement key, and a single-word statement stops the loop with
    `IndexError`. At most one name is appended per statement. `ScanLinesByLine`,
    `ScanLinesNames` and `ScanLinesFails` state which names are appended and when the loop stops.
   */
  function Collect(stmts: seq<string>, keys: set<string>): (r: ScanResult)
    ensures |r.Appended()| <= |stmts|
  {
    if stmts == [] then Packages([])
    else
      match PackageOf(stmts[0])
      case None => IndexError([])
      case Some(name) => Then(Packages(if name in keys then [] else [name]), Collect(stmts[1..], keys))
  }

  function ScanLines(lines: seq<string>, keys: set<string>): ScanResult {
    Collect(ImportStatements(lines), keys)
  }

  /**
    The scan of a script's text, split as `str.splitlines` splits it: it raises
    `IndexError` exactly when some scanned line is a single word, and it never
    appends a requirement key.
   */
  function ScanImports(script: string, keys: set<string>): (r: ScanResult)
    ensures r.IndexError? <==> SomeLineStops(SplitLines(script))
    ensures forall n :: n in r.Appended() ==> n !in keys
  {
    var lines := SplitLines(script);
    ScanLinesFails(lines, keys);
    CollectSkipsKeys(ImportStatements(lines), keys);
    ScanLines(lines, keys)
  }

  /**
    What one line contributes on its own: the error exactly when it is a scanned
    single word, otherwise at most one name, never a requirement key, and nothing
    at all from a line that is not scanned.
   */
  function LineContribution(line: string, keys: set<string>): (r: ScanResult)
    ensures r.IndexError? <==> StopsScan(line)
    ensures r.IndexError? ==> r.appended == []
    ensures r.Packages? ==> |r.names| <= 1
    ensures r.Packages? && r.names != [] ==> IsImportLine(line) && r.names[0] !in keys
  {
    if !IsImportLine(line) then Packages([])
    else
      match PackageOf(Strip(line))
      case None => IndexError([])
      case Some(name) => Packages(if name in keys then [] else [name])
  }

  lemma {:induction false} ThenAssociative(a: ScanResult, b: ScanResult, c: ScanResult)
    ensures Then(Then(a, b), c) == Then(a, Then(b, c))
  {
    if a.Packages? && b.Packages? && c.Packages? {
      assert a.names + b.names + c.names == a.names + (b.names + c.names);
    } else if a.Packages? && b.Packages? && c.IndexError? {
      assert a.names + b.names + c.appended == a.names + (b.names + c.appended);
    }
  }

  /**
    The scan of a script is the scan of its lines one after the other, each line
    contributing its own name or the error: source order and repeated names are
    kept, and the first single-word import line stops everything after it.
   */
  lemma {:induction false} ScanLinesByLine(lines: seq<string>, keys: set<string>)
    ensures ScanLines(lines, keys)
            == if lines == [] then Packages([])
               else Then(LineContribution(lines[0], keys), ScanLines(lines[1..], keys))
  {
    if lines != [] {
      var rest := ImportStatements(lines[1..]);
      if IsImportLine(lines[0]) {
        assert ImportStatements(lines) == [Strip(lines[0])] + rest;
        assert ImportStatements(lines)[1..] == rest;
      } else {
        assert ImportStatements(lines) == rest;
      }
    }
  }

  /** Scanning two blocks of lines is scanning the first, then the second. */
  lemma {:induction false} ScanLinesAppend(a: seq<string>, b: seq<string>, keys: set<string>)
    ensures ScanLines(a + b, keys) == Then(ScanLines(a, keys), ScanLines(b, keys))
    decreases |a|
  {
    if a == [] {
      assert a + b == b;
      assert ScanLines(a, keys) == Packages([]);
      match ScanLines(b, keys)
      case Packages(names) => assert [] + names == names;
      case IndexError(names) => assert [] + names == names;
    } else {
      var c := LineContribution(a[0], keys);
      assert ScanLines(a + b, keys) == Then(c, ScanLines(a[1..] + b, keys)) by {
        ScanLinesByLine(a + b, keys);
        assert (a + b)[0] == a[0];
        assert (a + b)[1..] == a[1..] + b;
      }
      assert ScanLines(a, keys) == Then(c, ScanLines(a[1..], keys)) by {
        ScanLinesByLine(a, keys);
      }
      ScanLinesAppend(a[1..], b, keys);
      ThenAssociative(c, ScanLines(a[1..], keys), ScanLines(b, keys));
    }
  }

  /** The qualifying lines whose name is not a requirement key. */
  ghost predicate Contributes(lines: seq<string>, keys: set<string>, i: int, name: string)
    requires 0 <= i < |lines|
  {
    IsImportLine(lines[i]) && PackageOf(Strip(lines[i])) == Some(name) && name !in keys
  }

  /** A scanned line with a single word, which has no second word to take. */
  predicate StopsScan(line: string) {
    IsImportLine(line) && PackageOf(Strip(line)).None?
  }

  /** Some scanned line of `lines` is a single word. */
  predicate SomeLineStops(lines: seq<string>) {
    exists i :: 0 <= i < |lines| && StopsScan(lines[i])
  }

  /** The scan fails exactly when some scanned line is a single word. */
  lemma {:induction false} ScanLinesFails(lines: seq<string>, keys: set<string>)
    ensures ScanLines(lines, keys).IndexError? <==> SomeLineStops(lines)
    decreases |lines|
  {
    if lines != [] {
      var tail := lines[1..];
      var first, others := LineContribution(lines[0], keys), ScanLines(tail, keys);
      assert ScanLines(lines, keys).IndexError? <==> first.IndexError? || others.IndexError? by {
        ScanLinesByLine(lines, keys);
      }
      assert first.IndexError? <==> StopsScan(lines[0]);
      ScanLinesFails(tail, keys);
      if others.IndexError? {
        var i :| 0 <= i < |tail| && StopsScan(tail[i]);
        assert lines[i + 1] == tail[i];
      }
      if exists i :: 0 < i < |lines| && StopsScan(lines[i]) {
        var i :| 0 < i < |lines| && StopsScan(lines[i]);
        assert tail[i - 1] == lines[i];
      }
    }
  }

  /**
    When the scan completes, it lists exactly the names of the scanned lines that
    are not requirement keys.
   */
  lemma {:induction false} ScanLinesNames(lines: seq<string>, keys: set<string>)
    ensures ScanLines(lines, keys).Packages? ==>
      forall name :: name in ScanLines(lines, keys).names
        <==> exists i :: 0 <= i < |lines| && Contributes(lines, keys, i, name)
    decreases |lines|
  {
    ScanLinesByLine(lines, keys);
    var r := ScanLines(lines, keys);
    if lines != [] && r.Packages? {
      var tail := lines[1..];
      ScanLinesNames(tail, keys);
      var first, others := LineContribution(lines[0], keys), ScanLines(tail, keys);
      assert first.Packages? && others.Packages?;
      assert r.names == first.names + others.names;
      forall name
        ensures name in r.names <==> exists i :: 0 <= i < |lines| && Contributes(lines, keys, i, name)
      {
        assert name in first.names <==> Contributes(lines, keys, 0, name);
        if exists i :: 0 <= i < |lines| && Contributes(lines, keys, i, name) {
          var i :| 0 <= i < |lines| && Contributes(lines, keys, i, name);
          if i > 0 {
            assert lines[i] == tail[i - 1];
            assert Contributes(tail, keys, i - 1, name);
          }
        }
        if name in others.names {
          var i :| 0 <= i < |tail| && Contributes(tail, keys, i, name);
          assert lines[i + 1] == tail[i];
          assert Contributes(lines, keys, i + 1, name);
        }
      }
    }
  }

  /** An indented import is not scanned. */
  lemma {:induction false} IndentedImportSkipped()
    ensures ScanLines(["    import os"], {}) == Packages([])
  {
    ScanLinesByLine(["    import os"], {});
  }

  /**
    The package of a statement is its second word up to the first `.`: for a
    statement `w1 <space> w2 rest`, with `w1` and `w2` words and `rest` empty or
    starting with whitespace, it is `w2` cut at its first `.`.
   */
  lemma {:induction false} PackageOfSecondWord(w1: string, c: char, w2: string, rest: string)
    requires w1 != [] && NoSpace(w1, 0, |w1|) && IsSpace(c)
    requires w2 != [] && NoSpace(w2, 0, |w2|)
    requires rest == [] || IsSpace(rest[0])
    ensures PackageOf(w1 + ([c] + (w2 + rest))) == Some(BeforeDot(w2))
  {
    SplitTwoWords(w1, c, w2, rest);
  }

  /** `important = 1` starts with `import`, so it is scanned, and its second word `=` is taken as a package. */
  lemma {:induction false} ImportantIsScanned()
    ensures IsImportLine("important = 1")
    ensures PackageOf("important = 1") == Some("=")
  {
    var stmt := "important" + ([' '] + ("=" + " 1"));
    PackageOfSecondWord("important", ' ', "=", " 1");
    assert BeforeDot("=") == "=";
    assert "important = 1" == stmt;
  }

  /**
    A scanned line that is a single word, such as a bare `import`, raises
    `IndexError` before anything is appended.
   */
  lemma {:induction false} BareImportFails(w: string, keys: set<string>)
    requires w != [] && NoSpace(w, 0, |w|) && IsImportLine(w)
    ensures ScanLines([w], keys) == IndexError([])
  {
    StripKeeps(w);
    assert Split(w) == [w] by {
      SplitAfterWord(w, []);
      assert w + [] == w;
    }
    ScanLinesByLine([w], keys);
  }

  /** A name that is a requirement key is never appended. */
  lemma {:induction false} CollectSkipsKeys(stmts: seq<string>, keys: set<string>)
    ensures forall n :: n in Collect(stmts, keys).Appended() ==> n !in keys
    decreases |stmts|
  {
    if stmts != [] {
      match PackageOf(stmts[0])
      case None =>
      case Some(name) =>
        CollectSkipsKeys(stmts[1..], keys);
        var rest := Collect(stmts[1..], keys);
        assert Collect(stmts, keys).Appended() == (if name in keys then [] else [name]) + rest.Appended();
    }
  }

  /**
    Lines 214 to 222 of `start_library_download` as written: the requirements are
    extracted from the script's comments and every imported package that is not
    a key of them is listed for installation.
   */
  function PackagesToInstall(script: string): (r: ScanResult)
    ensures forall n :: n in r.Appended() ==> n !in Requirements.ExtractVersionRequirements(script)
  {
    ScanImports(script, Requirements.ExtractVersionRequirements(script).Keys)
  }

  /**
    The same lines with the corrected extraction: a package whose version a
    comment requires is never listed for installation.
   */
  function PackagesToInstallIntended(script: string): (r: ScanResult)
    ensures forall n :: n in r.Appended() ==> n !in Requirements.ExtractIntended(script)
  {
    ScanImports(script, Requirements.ExtractIntended(script).Keys)
  }

  /** The line `import <pkg>`. */
  function ImportLine(pkg: string): string {
    "import " + pkg
  }

  /** A script of the requirement comment `# Required: <pkg><op><ver>` followed by the line `import <pkg>`. */
  function RequireThenImport(pkg: string, op: string, ver: string): string {
    Requirements.Prefix + pkg + op + ver + ("\n" + ImportLine(pkg) + "\n")
  }

  /** The line `import <pkg>` is scanned and names `pkg`, for a package with no whitespace and no `.`. */
  lemma {:induction false} ImportLineNames(pkg: string)
    requires pkg != [] && NoSpace(pkg, 0, |pkg|) && '.' !in pkg
    ensures IsImportLine(ImportLine(pkg)) && PackageOf(Strip(ImportLine(pkg))) == Some(pkg)
  {
    var imp := ImportLine(pkg);
    assert IsImportLine(imp) by {
      assert imp[..6] == "import";
    }
    assert Strip(imp) == imp by {
      assert imp[0] == 'i' && imp[|imp| - 1] == pkg[|pkg| - 1];
      StripKeeps(imp);
    }
    assert PackageOf(imp) == Some(BeforeDot(pkg)) by {
      assert imp == "import" + ([' '] + (pkg + []));
      PackageOfSecondWord("import", ' ', pkg, []);
    }
    BeforeDotWhole(pkg);
  }

  /** A two-line script whose first line is not scanned lists the second line's package unless it is a key. */
  lemma {:induction false} SecondLineListed(script: string, first: string, second: string, pkg: string,
                                            keys: set<string>)
    requires SplitLines(script) == [first, second]
    requires !IsImportLine(first)
    requires IsImportLine(second) && PackageOf(Strip(second)) == Some(pkg)
    ensures ScanImports(script, keys) == Packages(if pkg in keys then [] else [pkg])
  {
    ScanLinesByLine([first, second], keys);
    assert [first, second][1..] == [second];
    ScanLinesByLine([second], keys);
    assert [second][1..] == [];
    var names := if pkg in keys then [] else [pkg];
    assert names + [] == names;
  }

  /** No character of the requirement line `# Required: <pkg><op><ver>` is a line boundary. */
  lemma {:induction false} RequirementLineUnbroken(pkg: string, op: string, ver: string)
    requires Requirements.WellFormed(Requirements.Requirement(pkg, op, ver))
    ensures var line := Requirements.Prefix + pkg + op + ver;
      line[0] == '#' && forall k :: 0 <= k < |line| ==> !IsLineBreak(line[k])
  {
    var line := Requirements.Prefix + pkg + op + ver;
    assert NoSpace(line, 12, |line|) by {
      Requirements.LineTokenBounds(pkg, op, ver, []);
      assert line + [] == line;
    }
    assert forall k :: 0 <= k < 12 ==> !IsLineBreak(line[k]) by {
      assert line[..12] == "# Required: ";
      assert forall k :: 0 <= k < 12 ==> line[k] == line[..12][k];
    }
    forall k | 12 <= k < |line|
      ensures !IsLineBreak(line[k])
    {
      LineBreakIsSpace(line[k]);
    }
  }

  /** No character of `import <pkg>` is a line boundary or a `#`. */
  lemma {:induction false} ImportLineChars(pkg: string)
    requires NoSpace(pkg, 0, |pkg|) && forall k :: 0 <= k < |pkg| ==> pkg[k] != '#'
    ensures var imp := ImportLine(pkg);
      forall k :: 0 <= k < |imp| ==> !IsLineBreak(imp[k]) && imp[k] != '#'
  {
    var imp := ImportLine(pkg);
    forall k | 0 <= k < |imp|
      ensures !IsLineBreak(imp[k]) && imp[k] != '#'
    {
      if k < 7 {
        assert imp[k] == "import "[k];
      } else {
        assert imp[k] == pkg[k - 7];
        LineBreakIsSpace(imp[k]);
      }
    }
  }

  /**
    The script `# Required: <pkg><op><ver>`, then `import <pkg>`, splits into its
    two lines, the first of which is not scanned, and its only `#` is the comment's.
   */
  lemma {:induction false} RequireThenImportLines(pkg: string, op: string, ver: string)
    requires Requirements.WellFormed(Requirements.Requirement(pkg, op, ver))
    requires forall k :: 0 <= k < |pkg| ==> pkg[k] != '#'
    ensures var line, imp := Requirements.Prefix + pkg + op + ver, ImportLine(pkg);
      && SplitLines(RequireThenImport(pkg, op, ver)) == [line, imp]
      && Requirements.QuietTail("\n" + imp + "\n")
      && !IsImportLine(line)
  {
    var line, imp := Requirements.Prefix + pkg + op + ver, ImportLine(pkg);
    var post := "\n" + imp + "\n";
    RequirementLineUnbroken(pkg, op, ver);
    ImportLineChars(pkg);
    assert Unbroken([line, imp]) by {
      forall j, k | 0 <= j < 2 && 0 <= k < |[line, imp][j]|
        ensures !IsLineBreak([line, imp][j][k])
      {
        if j == 0 {
          assert [line, imp][j] == line;
        } else {
          assert [line, imp][j] == imp;
        }
      }
    }
    assert Terminated([line, imp]) == line + post by {
      assert Terminated([line, imp][1..]) == imp + "\n" + Terminated([]);
    }
    SplitLinesTerminated([line, imp]);
    assert Requirements.QuietTail(post) by {
      forall k | 0 <= k < |post|
        ensures post[k] != '#'
      {
        if 0 < k < |post| - 1 {
          assert post[k] == imp[k - 1];
        }
      }
    }
  }

  /**
    The as-written extraction lists a required package for installation anyway:
    on `# Required: <pkg><op><ver>` then `import <pkg>`, with a two-character
    operator, the key is `pkg` plus the first operator character, so `pkg` is
    listed; with the corrected extraction it is not.
   */
  lemma {:induction false} RequiredPackageStillListed(pkg: string, op: string, ver: string)
    requires Requirements.WellFormed(Requirements.Requirement(pkg, op, ver))
    requires |op| >= 2
    requires forall k :: 0 <= k < |pkg| ==> !Requirements.IsOpChar(pkg[k]) && pkg[k] != '#' && pkg[k] != '.'
    requires forall k :: 0 <= k < |ver| ==> !Requirements.IsOpChar(ver[k])
    ensures PackagesToInstall(RequireThenImport(pkg, op, ver)) == Packages([pkg])
    ensures PackagesToInstallIntended(RequireThenImport(pkg, op, ver)) == Packages([])
  {
    var line, imp := Requirements.Prefix + pkg + op + ver, ImportLine(pkg);
    var post := "\n" + imp + "\n";
    var script := RequireThenImport(pkg, op, ver);
    RequireThenImportLines(pkg, op, ver);
    ImportLineNames(pkg);
    var greedyKey := pkg + op[..|op| - 1];
    assert Requirements.ExtractVersionRequirements(script).Keys == {greedyKey} by {
      Requirements.AsWrittenExtraction(pkg, op, ver, post);
    }
    assert Requirements.ExtractIntended(script).Keys == {pkg} by {
      Requirements.IntendedRoundTrip(pkg, op, ver, post);
    }
    assert pkg != greedyKey by {
      assert |greedyKey| == |pkg| + |op| - 1;
    }
    SecondLineListed(script, line, imp, pkg, {greedyKey});
    SecondLineListed(script, line, imp, pkg, {pkg});
  }

  /** `# Required: numpy>=1.2` then `import numpy`: the as-written scan lists `numpy`, the corrected one does not. */
  lemma {:induction false} NumpyListedAnyway()
    ensures PackagesToInstall(RequireThenImport("numpy", ">=", "1.2")) == Packages(["numpy"])
    ensures PackagesToInstallIntended(RequireThenImport("numpy", ">=", "1.2")) == Packages([])
  {
    RequiredPackageStillListed("numpy", ">=", "1.2");
  }
}

=== FILE: optional.dfy ===
/**
  Optional values: Python's `None` for a missing argument, and the outcome of a
  call that either produces a value or raises.
 */
module Optional {

  datatype Option<+T> = None | Some(value: T)
}

=== FILE: pystr.dfy ===
/**
  The parts of Python's `str` behaviour that the downloader relies on: the Unicode
  whitespace class shared by `str.isspace`, `str.split()`, `str.strip()` and the
  regular-expression class `\s`; the line boundaries of `str.splitlines()`; and
  `str.split('.')[0]`.
 */
module PyStr {

  /** `str.isspace` for one character; `\s` in a `str` pattern matches the same set. */
  predicate IsSpace(c: char) {
    var n := c as int;
    || 0x09 <= n <= 0x0D
    || 0x1C <= n <= 0x20
    || n == 0x85 || n == 0xA0 || n == 0x1680
    || 0x2000 <= n <= 0x200A
    || n == 0x2028 || n == 0x2029 || n == 0x202F || n == 0x205F || n == 0x3000
  }

  /** A line boundary of `str.splitlines` (`\r\n` counts as one boundary). */
  predicate IsLineBreak(c: char) {
    var n := c as int;
    || 0x0A <= n <= 0x0D
    || 0x1C <= n <= 0x1E
    || n == 0x85 || n == 0x2028 || n == 0x2029
  }

  predicate AllSpace(s: string, i: int, j: int)
    requires 0 <= i <= j <= |s|
  {
    forall k {:trigger IsSpace(s[k])} :: i <= k < j ==> IsSpace(s[k])
  }

  predicate NoSpace(s: string, i: int, j: int)
    requires 0 <= i <= j <= |s|
  {
    forall k {:trigger IsSpace(s[k])} :: i <= k < j ==> !IsSpace(s[k])
  }

  /** The first index at or after `i` that holds no whitespace (or `|s|`). */
  function SkipSpace(s: string, i: nat): (j: nat)
    requires i <= |s|
    ensures i <= j <= |s|
    ensures AllSpace(s, i, j)
    ensures j == |s| || !IsSpace(s[j])
    decreases |s| - i
  {
    if i == |s| || !IsSpace(s[i]) then i else SkipSpace(s, i + 1)
  }

  /** The first index at or after `i` that holds whitespace (or `|s|`): the end of a token. */
  function TokenEnd(s: string, i: nat): (j: nat)
    requires i <= |s|
    ensures i <= j <= |s|
    ensures NoSpace(s, i, j)
    ensures j == |s| || IsSpace(s[j])
    decreases |s| - i
  {
    if i == |s| || IsSpace(s[i]) then i else TokenEnd(s, i + 1)
  }

  /** The first index at or after `i` that holds a line boundary (or `|s|`). */
  function LineEnd(s: string, i: nat): (j: nat)
    requires i <= |s|
    ensures i <= j <= |s|
    ensures forall k {:trigger IsLineBreak(s[k])} :: i <= k < j ==> !IsLineBreak(s[k])
    ensures j == |s| || IsLineBreak(s[j])
    decreases |s| - i
  {
    if i == |s| || IsLineBreak(s[i]) then i else LineEnd(s, i + 1)
  }

  /** No line of `lines` holds a line boundary. */
  predicate Unbroken(lines: seq<string>) {
    forall j, k :: 0 <= j < |lines| && 0 <= k < |lines[j]| ==> !IsLineBreak(lines[j][k])
  }

  /**
    `str.splitlines()`: the text cut at every line boundary, the boundaries
    dropped; a trailing boundary does not start an empty last line.
   */
  function SplitLines(s: string): (lines: seq<string>)
    ensures Unbroken(lines)
    ensures s == [] <==> lines == []
    decreases |s|
  {
    if s == [] then []
    else
      var i := LineEnd(s, 0);
      if i == |s| then [s]
      else
        var width := if s[i] == '\r' && i + 1 < |s| && s[i + 1] == '\n' then 2 else 1;
        [s[..i]] + SplitLines(s[i + width..])
  }

  /** The text of `lines`, each followed by `\n`. */
  function Terminated(lines: seq<string>): string {
    if lines == [] then [] else lines[0] + "\n" + Terminated(lines[1..])
  }

  /** Splitting a text whose every line ends in `\n` gives the lines back, empty ones included. */
  lemma {:induction false} SplitLinesTerminated(lines: seq<string>)
    requires Unbroken(lines)
    ensures SplitLines(Terminated(lines)) == lines
    decreases |lines|
  {
    if lines != [] {
      var l, tail := lines[0], lines[1..];
      assert Unbroken(tail) by {
        forall j, k | 0 <= j < |tail| && 0 <= k < |tail[j]|
          ensures !IsLineBreak(tail[j][k])
        {
          assert tail[j] == lines[j + 1];
        }
      }
      SplitLinesTerminated(tail);
      assert SplitLines(Terminated(lines)) == [l] + tail by {
        assert Terminated(lines) == l + ['\n'] + Terminated(tail);
        assert forall k :: 0 <= k < |l| ==> !IsLineBreak(l[k]) by {
          forall k | 0 <= k < |l| ensures !IsLineBreak(l[k]) {
            assert l[k] == lines[0][k];
          }
        }
        SplitLinesBreak(l, '\n', Terminated(tail));
      }
      assert lines == [l] + tail;
    }
  }

  /** In `l + [b] + rest`, with `l` free of line boundaries and `b` a boundary, the first line ends at `|l|`. */
  lemma {:induction false} FirstLineEndAt(l: string, b: char, rest: string)
    requires forall k :: 0 <= k < |l| ==> !IsLineBreak(l[k])
    requires IsLineBreak(b)
    ensures LineEnd(l + [b] + rest, 0) == |l|
  {
    var s := l + [b] + rest;
    assert s[|l|] == b;
    assert forall k :: 0 <= k < |l| ==> s[k] == l[k];
  }

  /** A non-empty text with no line boundary is one line, kept although no boundary ends it. */
  lemma {:induction false} SplitLinesSingle(l: string)
    requires l != []
    requires forall k :: 0 <= k < |l| ==> !IsLineBreak(l[k])
    ensures SplitLines(l) == [l]
  {
    assert LineEnd(l, 0) == |l|;
  }

  /**
    A line ended by a single boundary character `b` (not the `\r` of a `\r\n`
    pair) is the first line, and the lines of the rest follow it.
   */
  lemma {:induction false} SplitLinesBreak(l: string, b: char, rest: string)
    requires forall k :: 0 <= k < |l| ==> !IsLineBreak(l[k])
    requires IsLineBreak(b)
    requires !(b == '\r' && rest != [] && rest[0] == '\n')
    ensures SplitLines(l + [b] + rest) == [l] + SplitLines(rest)
  {
    var s := l + [b] + rest;
    FirstLineEndAt(l, b, rest);
    assert s[|l|] == b;
    assert |l| + 1 < |s| ==> s[|l| + 1] == rest[0];
    assert s[..|l|] == l;
    assert s[|l| + 1..] == rest;
  }

  /** `\r\n` is one boundary: it ends the first line, and the lines of the rest follow. */
  lemma {:induction false} SplitLinesCrLf(l: string, rest: string)
    requires forall k :: 0 <= k < |l| ==> !IsLineBreak(l[k])
    ensures SplitLines(l + "\r\n" + rest) == [l] + SplitLines(rest)
  {
    var s := l + "\r\n" + rest;
    assert s == l + ['\r'] + (['\n'] + rest);
    FirstLineEndAt(l, '\r', ['\n'] + rest);
    assert s[|l|] == '\r' && s[|l| + 1] == '\n';
    assert s[..|l|] == l;
    assert s[|l| + 2..] == rest;
  }

  /** A last line with no boundary after it is kept: `first\nlast` is the two lines. */
  lemma {:induction false} UnterminatedLastLine(first: string, last: string)
    requires forall k :: 0 <= k < |first| ==> !IsLineBreak(first[k])
    requires last != [] && forall k :: 0 <= k < |last| ==> !IsLineBreak(last[k])
    ensures SplitLines(first + "\n" + last) == [first, last]
  {
    assert first + "\n" + last == first + ['\n'] + last;
    SplitLinesBreak(first, '\n', last);
    SplitLinesSingle(last);
  }

  /** The end of `s[lo..]` once trailing whitespace is removed. */
  function TrimEnd(s: string, lo: nat, hi: nat): (j: nat)
    requires lo <= hi <= |s|
    ensures lo <= j <= hi
    ensures AllSpace(s, j, hi)
    ensures j == lo || !IsSpace(s[j - 1])
    decreases hi - lo
  {
    if hi == lo || !IsSpace(s[hi - 1]) then hi else TrimEnd(s, lo, hi - 1)
  }

  /** `str.strip()`: `s` without leading and trailing whitespace. */
  function Strip(s: string): (t: string)
    ensures |t| <= |s|
    ensures t == [] || (!IsSpace(t[0]) && !IsSpace(t[|t| - 1]))
    ensures exists i :: 0 <= i <= |s| - |t| && s[i..i + |t|] == t
                     && AllSpace(s, 0, i) && AllSpace(s, i + |t|, |s|)
  {
    var i := SkipSpace(s, 0);
    var j := TrimEnd(s, i, |s|);
    s[i..j]
  }

  /** `str.split()`: the maximal runs of non-whitespace characters, in order; none is empty. */
  function Split(s: string): (tokens: seq<string>)
    ensures forall i :: 0 <= i < |tokens| ==> tokens[i] != [] && NoSpace(tokens[i], 0, |tokens[i]|)
    decreases |s|
  {
    if s == [] then []
    else if IsSpace(s[0]) then Split(s[1..])
    else
      var j := TokenEnd(s, 0);
      [s[..j]] + Split(s[j..])
  }

  /** Every line boundary of `str.splitlines` is also whitespace to `str.isspace`. */
  lemma {:induction false} LineBreakIsSpace(c: char)
    requires !IsSpace(c)
    ensures !IsLineBreak(c)
  {
  }

  /** A text that starts and ends with non-whitespace is its own `strip()`. */
  lemma {:induction false} StripKeeps(s: string)
    requires s != [] && !IsSpace(s[0]) && !IsSpace(s[|s| - 1])
    ensures Strip(s) == s
  {
    var t := Strip(s);
    var i :| 0 <= i <= |s| - |t| && s[i..i + |t|] == t && AllSpace(s, 0, i) && AllSpace(s, i + |t|, |s|);
    assert i == 0 && i + |t| == |s|;
  }

  /** `t.split('.')[0]`: the part of `t` before its first `.`. */
  function BeforeDot(t: string): (r: string)
    ensures r <= t
    ensures '.' !in r
    ensures |r| == |t| || t[|r|] == '.'
  {
    if t == [] || t[0] == '.' then [] else [t[0]] + BeforeDot(t[1..])
  }

  /** A text without `.` is its own `split('.')[0]`. */
  lemma {:induction false} BeforeDotWhole(t: string)
    requires '.' !in t
    ensures BeforeDot(t) == t
    decreases |t|
  {
    if t != [] {
      assert t[0] in t;
      assert forall k :: 0 <= k < |t[1..]| ==> t[1..][k] == t[k + 1];
      BeforeDotWhole(t[1..]);
      assert [t[0]] + t[1..] == t;
    }
  }

  /** A word `s[..n]` followed by whitespace or the end is the first token. */
  lemma {:induction false} SplitWord(s: string, n: nat)
    requires 0 < n <= |s| && NoSpace(s, 0, n)
    requires n == |s| || IsSpace(s[n])
    ensures Split(s) == [s[..n]] + Split(s[n..])
  {
    TokenEndIs(s, 0, n);
  }

  /** `TokenEnd` is the one index that ends a run of non-whitespace. */
  lemma {:induction false} TokenEndIs(s: string, i: nat, j: nat)
    requires i <= j <= |s| && NoSpace(s, i, j)
    requires j == |s| || IsSpace(s[j])
    ensures TokenEnd(s, i) == j
    decreases j - i
  {
    if i < j {
      TokenEndIs(s, i + 1, j);
    }
  }

  /** A word followed by whitespace or the end is the first token. */
  lemma {:induction false} SplitAfterWord(w: string, rest: string)
    requires w != [] && NoSpace(w, 0, |w|)
    requires rest == [] || IsSpace(rest[0])
    ensures Split(w + rest) == [w] + Split(rest)
  {
    var s := w + rest;
    assert s[..|w|] == w && s[|w|..] == rest;
    assert forall k :: 0 <= k < |w| ==> s[k] == w[k];
    SplitWord(s, |w|);
  }

  /** A whitespace character in front does not count. */
  lemma {:induction false} SplitAfterSpace(c: char, rest: string)
    requires IsSpace(c)
    ensures Split([c] + rest) == Split(rest)
  {
    assert ([c] + rest)[1..] == rest;
  }

  /** Two words separated by whitespace are the first two tokens. */
  lemma {:induction false} SplitTwoWords(w1: string, c: char, w2: string, rest: string)
    requires w1 != [] && NoSpace(w1, 0, |w1|) && IsSpace(c)
    requires w2 != [] && NoSpace(w2, 0, |w2|)
    requires rest == [] || IsSpace(rest[0])
    ensures Split(w1 + ([c] + (w2 + rest))) == [w1, w2] + Split(rest)
  {
    var tail := [c] + (w2 + rest);
    assert Split(w1 + tail) == [w1] + Split(tail) by {
      SplitAfterWord(w1, tail);
    }
    assert Split(tail) == Split(w2 + rest) by {
      SplitAfterSpace(c, w2 + rest);
    }
    assert Split(w2 + rest) == [w2] + Split(rest) by {
      SplitAfterWord(w2, rest);
    }
    assert [w1] + ([w2] + Split(rest)) == [w1, w2] + Split(rest);
  }
}

=== FILE: requirements.dfy ===
/**
  `extract_version_from_comments`: `re.findall` of the pattern
  `#\s*Required:\s*(\S+)([<>=!]+)(\S+)` over a script, folded into a dict from
  package to (operator, version), later matches overwriting earlier ones.

  The matcher is written for this one pattern. Both `\s*` are followed by a
  non-space symbol, so they always take every whitespace character there is.
  Groups 1 to 3 then lie inside the token that follows, and group 3 runs to the
  token's end. Group 1 is greedy, so it ends at the last operator character that
  still leaves a version character behind it: the operator group is always one
  character long. `Lazy` is the same pattern with group 1 written `(\S+?)`.
 */
module Requirements {
  import opened Optional
  import opened PyStr

  /** A character of the class `[<>=!]`. */
  predicate IsOpChar(c: char) {
    c == '<' || c == '>' || c == '=' || c == '!'
  }

  predicate AllOp(s: string, i: int, j: int)
    requires 0 <= i <= j <= |s|
  {
    forall k {:trigger IsOpChar(s[k])} :: i <= k < j ==> IsOpChar(s[k])
  }

  const Keyword: string := "Required:"

  /** `Required:` is written at `i`. */
  predicate KeywordAt(s: string, i: nat) {
    i + |Keyword| <= |s| && s[i..i + |Keyword|] == Keyword
  }

  /** How group 1 repeats: `(\S+)` as written, or `(\S+?)`. */
  datatype Group1 = Greedy | Lazy

  /**
    The positions of one match in a text: `#` at `hash`, the keyword at `kw`,
    group 1 is `[pkg, op)`, group 2 is `[op, ver)`, group 3 is `[ver, end)`.
   */
  datatype Span = Span(hash: nat, kw: nat, pkg: nat, op: nat, ver: nat, end: nat)

  /** `d` cuts `s[p..d.end]` into the parts the pattern demands: `d` is a match at `p`. */
  predicate IsMatch(s: string, p: nat, d: Span) {
    && d.hash == p && p < |s| && s[p] == '#'
    && p + 1 <= d.kw && d.kw + |Keyword| <= d.pkg && d.pkg < d.op < d.ver < d.end <= |s|
    && AllSpace(s, p + 1, d.kw)
    && KeywordAt(s, d.kw)
    && AllSpace(s, d.kw + |Keyword|, d.pkg)
    && NoSpace(s, d.pkg, d.op)
    && AllOp(s, d.op, d.ver)
    && NoSpace(s, d.ver, d.end)
  }

  /**
    A backtracking engine tries the matches at one position in lexicographic order
    of their part boundaries, a greedy part's longer choices first and a lazy
    part's shorter ones first. `TriedNoEarlier(g, d, e)`: `d` is `e` or is tried after it.
   */
  predicate TriedNoEarlier(g: Group1, d: Span, e: Span) {
    || d.kw < e.kw
    || (d.kw == e.kw && d.pkg < e.pkg)
    || (d.kw == e.kw && d.pkg == e.pkg && (if g == Greedy then d.op < e.op else d.op > e.op))
    || (d.kw == e.kw && d.pkg == e.pkg && d.op == e.op && d.ver < e.ver)
    || (d.kw == e.kw && d.pkg == e.pkg && d.op == e.op && d.ver == e.ver && d.end <= e.end)
  }

  /** `m` is the match Python's engine reports at `p`: the first one it tries that succeeds. */
  ghost predicate FirstTried(g: Group1, s: string, p: nat, m: Span) {
    IsMatch(s, p, m) && forall d :: IsMatch(s, p, d) ==> TriedNoEarlier(g, d, m)
  }

  /** The last operator character in `s[lo..hi)`. */
  function LastOp(s: string, lo: nat, hi: nat): (r: Option<nat>)
    requires lo <= hi <= |s|
    ensures r.Some? ==> lo <= r.value < hi && IsOpChar(s[r.value])
                        && forall k {:trigger IsOpChar(s[k])} :: r.value < k < hi ==> !IsOpChar(s[k])
    ensures r.None? ==> forall k {:trigger IsOpChar(s[k])} :: lo <= k < hi ==> !IsOpChar(s[k])
    decreases hi - lo
  {
    if hi == lo then None
    else if IsOpChar(s[hi - 1]) then Some(hi - 1)
    else LastOp(s, lo, hi - 1)
  }

  /** The first operator character in `s[lo..hi)`. */
  function FirstOp(s: string, lo: nat, hi: nat): (r: Option<nat>)
    requires lo <= hi <= |s|
    ensures r.Some? ==> lo <= r.value < hi && IsOpChar(s[r.value])
                        && forall k {:trigger IsOpChar(s[k])} :: lo <= k < r.value ==> !IsOpChar(s[k])
    ensures r.None? ==> forall k {:trigger IsOpChar(s[k])} :: lo <= k < hi ==> !IsOpChar(s[k])
    decreases hi - lo
  {
    if hi == lo then None
    else if IsOpChar(s[lo]) then Some(lo)
    else FirstOp(s, lo + 1, hi)
  }

  /** The end of the run of operator characters starting at `i`, stopping at `hi`. */
  function OpRunEnd(s: string, i: nat, hi: nat): (j: nat)
    requires i <= hi <= |s|
    ensures i <= j <= hi
    ensures AllOp(s, i, j)
    ensures j == hi || !IsOpChar(s[j])
    decreases hi - i
  {
    if i == hi || !IsOpChar(s[i]) then i else OpRunEnd(s, i + 1, hi)
  }

  /**
    Where groups 1 and 2 end when the three groups split the token `s[a..e)`:
    group 1 is `[a, b)`, group 2 is `[b, c)` and group 3 is `[c, e)`.
   */
  function SplitToken(g: Group1, s: string, a: nat, e: nat): (r: Option<(nat, nat)>)
    requires a <= e <= |s|
    ensures r.Some? ==> a < r.value.0 < r.value.1 < e && AllOp(s, r.value.0, r.value.1)
    ensures r.Some? && g == Greedy ==>
      && r.value.1 == r.value.0 + 1
      && forall k {:trigger IsOpChar(s[k])} :: r.value.1 <= k < e - 1 ==> !IsOpChar(s[k])
  {
    if e < a + 2 then None
    else
      match (if g == Greedy then LastOp(s, a + 1, e - 1) else FirstOp(s, a + 1, e - 1))
      case Some(b) => Some((b, if g == Greedy then b + 1 else OpRunEnd(s, b, e - 1)))
      case None => None
  }

  /** The match the engine reports at position `p`, if any. */
  function MatchAt(g: Group1, s: string, p: nat): (r: Option<Span>)
    ensures r.Some? ==> IsMatch(s, p, r.value)
    ensures r.Some? && g == Greedy ==>
      && r.value.ver == r.value.op + 1
      && forall k {:trigger IsOpChar(s[k])} :: r.value.ver <= k < r.value.end - 1 ==> !IsOpChar(s[k])
  {
    if p < |s| && s[p] == '#' then
      var kw := SkipSpace(s, p + 1);
      if KeywordAt(s, kw) then
        TokenMatch(g, s, p, kw, SkipSpace(s, kw + |Keyword|))
      else None
    else None
  }

  /** The match whose `#` is at `p`, keyword at `kw` and token at `a`, if the token splits. */
  function TokenMatch(g: Group1, s: string, p: nat, kw: nat, a: nat): Option<Span>
    requires a <= |s|
  {
    var e := TokenEnd(s, a);
    var split := SplitToken(g, s, a, e);
    if split.Some? then Some(Span(p, kw, a, split.value.0, split.value.1, e)) else None
  }

  lemma {:induction false} OpIsNotSpace(c: char)
    requires IsOpChar(c)
    ensures !IsSpace(c)
  {
  }

  /** Both `\s*` of a match take all the whitespace there is, and the groups stay inside one token. */
  lemma {:induction false} MatchBoundaries(s: string, p: nat, d: Span)
    requires IsMatch(s, p, d)
    ensures d.kw == SkipSpace(s, p + 1)
    ensures d.pkg == SkipSpace(s, d.kw + |Keyword|)
    ensures d.end <= TokenEnd(s, d.pkg)
  {
    assert s[d.kw] == Keyword[0] == 'R';
    assert !IsSpace(s[d.kw]) && !IsSpace(s[d.pkg]);
    forall k | d.op <= k < d.ver
      ensures !IsSpace(s[k])
    {
      OpIsNotSpace(s[k]);
    }
  }

  /**
    Any split of the token `s[a..e)` into the three groups is found by
    `SplitToken`, which reports one the engine tries no later: the greedy group 1
    ends at or after `b`, the lazy one at or before it.
   */
  lemma {:induction false} SplitTokenChoice(g: Group1, s: string, a: nat, e: nat, b: nat, c: nat)
    requires a < b < c < e <= |s| && AllOp(s, b, c)
    ensures SplitToken(g, s, a, e).Some?
    ensures var (b', c') := SplitToken(g, s, a, e).value;
      || (if g == Greedy then b < b' else b > b')
      || (b == b' && c <= c')
  {
    assert IsOpChar(s[b]);
    if g == Greedy {
      if c > b + 1 {
        assert IsOpChar(s[b + 1]);
      }
    } else {
      var b' := FirstOp(s, a + 1, e - 1).value;
      var c' := OpRunEnd(s, b', e - 1);
      if b == b' && c' < c {
        assert IsOpChar(s[c']);
      }
    }
  }

  /** Any match at `p` is found by `MatchAt`, which reports one tried no later than it. */
  lemma {:induction false} MatchAtComplete(g: Group1, s: string, p: nat, d: Span)
    requires IsMatch(s, p, d)
    ensures MatchAt(g, s, p).Some?
    ensures TriedNoEarlier(g, d, MatchAt(g, s, p).value)
  {
    var e := TokenEnd(s, d.pkg);
    assert SkipSpace(s, p + 1) == d.kw && SkipSpace(s, d.kw + |Keyword|) == d.pkg && d.end <= e by {
      MatchBoundaries(s, p, d);
    }
    assert SplitToken(g, s, d.pkg, e).Some? by {
      SplitTokenChoice(g, s, d.pkg, e, d.op, d.ver);
    }
    var r := SplitToken(g, s, d.pkg, e).value;
    assert (if g == Greedy then d.op < r.0 else d.op > r.0) || (d.op == r.0 && d.ver <= r.1) by {
      SplitTokenChoice(g, s, d.pkg, e, d.op, d.ver);
    }
    assert MatchAt(g, s, p) == Some(Span(p, d.kw, d.pkg, r.0, r.1, e)) by {
      MatchAtFrom(g, s, p, d.kw, d.pkg);
    }
  }

  /** Where the keyword and group 1 start, `MatchAt` only has the token left to split. */
  lemma {:induction false} MatchAtFrom(g: Group1, s: string, p: nat, kw: nat, a: nat)
    requires p < |s| && s[p] == '#' && SkipSpace(s, p + 1) == kw
    requires KeywordAt(s, kw)
    requires SkipSpace(s, kw + |Keyword|) == a
    requires SplitToken(g, s, a, TokenEnd(s, a)).Some?
    ensures var r := SplitToken(g, s, a, TokenEnd(s, a)).value;
      MatchAt(g, s, p) == Some(Span(p, kw, a, r.0, r.1, TokenEnd(s, a)))
  {
    assert MatchAt(g, s, p) == TokenMatch(g, s, p, kw, a);
  }

  /**
    `MatchAt` is the matching of Python's backtracking engine at one position:
    it reports the first match the engine tries, and reports none exactly when
    the pattern matches nowhere at `p`.
   */
  lemma {:induction false} MatchAtFirstTried(g: Group1, s: string, p: nat)
    ensures MatchAt(g, s, p).Some? ==> FirstTried(g, s, p, MatchAt(g, s, p).value)
    ensures MatchAt(g, s, p).None? <==> forall d :: !IsMatch(s, p, d)
  {
    forall d | IsMatch(s, p, d)
      ensures MatchAt(g, s, p).Some? && TriedNoEarlier(g, d, MatchAt(g, s, p).value)
    {
      MatchAtComplete(g, s, p, d);
    }
  }

  /** The engine's answer at every position of `s`. */
  function MatchTable(g: Group1, s: string): (t: seq<Option<Span>>)
    ensures |t| == |s|
    ensures forall q :: 0 <= q < |s| ==> t[q] == MatchAt(g, s, q)
    ensures MatchesEndAfterStart(t)
  {
    seq(|s|, q requires 0 <= q < |s| => MatchAt(g, s, q))
  }

  /** Every match in table `t` starts where it is listed and ends within the table, after its start. */
  predicate MatchesEndAfterStart(t: seq<Option<Span>>) {
    forall q :: 0 <= q < |t| && t[q].Some? ==> t[q].value.hash == q < t[q].value.end <= |t|
  }

  /** `re.findall`'s scan of table `t` from position `p`: try each position in turn, resume after each match. */
  function Scan(t: seq<Option<Span>>, p: nat): (ms: seq<Span>)
    requires p <= |t| && MatchesEndAfterStart(t)
    ensures forall j :: 0 <= j < |ms| ==> p <= ms[j].hash < |t| && t[ms[j].hash] == Some(ms[j])
    decreases |t| - p
  {
    if p == |t| then []
    else
      match t[p]
      case None => Scan(t, p + 1)
      case Some(m) => [m] + Scan(t, m.end)
  }

  /** No match starts anywhere in `[lo, hi)`. */
  predicate NoMatchIn(t: seq<Option<Span>>, lo: nat, hi: nat)
    requires hi <= |t|
  {
    forall q :: lo <= q < hi ==> t[q].None?
  }

  /**
    `ms` is the leftmost, non-overlapping sequence of matches from `p`: the first
    is the engine's match at the first position from `p` where there is one, and
    the rest are the leftmost non-overlapping matches from where it ends.
   */
  ghost predicate LeftmostNonOverlapping(t: seq<Option<Span>>, p: nat, ms: seq<Span>)
    requires p <= |t|
    decreases |ms|
  {
    if ms == [] then NoMatchIn(t, p, |t|)
    else
      && p <= ms[0].hash < ms[0].end <= |t|
      && t[ms[0].hash] == Some(ms[0])
      && NoMatchIn(t, p, ms[0].hash)
      && LeftmostNonOverlapping(t, ms[0].end, ms[1..])
  }

  /** The scan finds the leftmost non-overlapping matches. */
  lemma {:induction false} ScanLeftmost(t: seq<Option<Span>>, p: nat)
    requires p <= |t| && MatchesEndAfterStart(t)
    ensures LeftmostNonOverlapping(t, p, Scan(t, p))
    decreases |t| - p
  {
    if p < |t| {
      match t[p]
      case None =>
        ScanLeftmost(t, p + 1);
      case Some(m) =>
        ScanLeftmost(t, m.end);
        assert Scan(t, p)[1..] == Scan(t, m.end);
    }
  }

  /** The leftmost non-overlapping matches are unique: they are what the scan finds. */
  lemma {:induction false} LeftmostIsScan(t: seq<Option<Span>>, p: nat, ms: seq<Span>)
    requires p <= |t| && MatchesEndAfterStart(t)
    requires LeftmostNonOverlapping(t, p, ms)
    ensures ms == Scan(t, p)
    decreases |t| - p
  {
    if p < |t| {
      match t[p]
      case None =>
        if ms != [] {
          assert ms[0].hash != p;
        }
        LeftmostIsScan(t, p + 1, ms);
      case Some(m) =>
        assert ms != [] && ms[0] == m;
        LeftmostIsScan(t, m.end, ms[1..]);
    }
  }

  /** One tuple of `re.findall`'s result: the three groups of a match. */
  datatype Requirement = Requirement(pkg: string, op: string, ver: string)

  /** The groups of `m` are as the pattern demands: non-space, operator characters, non-space. */
  predicate WellFormed(r: Requirement) {
    && r.pkg != [] && NoSpace(r.pkg, 0, |r.pkg|)
    && r.op != [] && AllOp(r.op, 0, |r.op|)
    && r.ver != [] && NoSpace(r.ver, 0, |r.ver|)
  }

  function Groups(s: string, m: Span): (r: Requirement)
    requires IsMatch(s, m.hash, m)
    ensures WellFormed(r)
  {
    Requirement(s[m.pkg..m.op], s[m.op..m.ver], s[m.ver..m.end])
  }

  /** `re.findall(pattern, s)`: the groups of the leftmost non-overlapping matches, in order. */
  function FindAll(g: Group1, s: string): (rs: seq<Requirement>)
    ensures forall j :: 0 <= j < |rs| ==> WellFormed(rs[j])
    ensures g == Greedy ==> forall j :: 0 <= j < |rs| ==> |rs[j].op| == 1
  {
    var t := MatchTable(g, s);
    var ms := Scan(t, 0);
    seq(|ms|, j requires 0 <= j < |ms| => Groups(s, ms[j]))
  }

  /** No later tuple of `rs` than number `j` has the same package. */
  predicate LastFor(rs: seq<Requirement>, j: int)
    requires 0 <= j < |rs|
  {
    forall j' :: j < j' < |rs| ==> rs[j'].pkg != rs[j].pkg
  }

  /** The dict built from the tuples in order: each sets its package's entry, so a later tuple for a package replaces an earlier one. */
  function ToDict(rs: seq<Requirement>): map<string, (string, string)>
    decreases |rs|
  {
    if rs == [] then map[]
    else
      var last := rs[|rs| - 1];
      ToDict(rs[..|rs| - 1])[last.pkg := (last.op, last.ver)]
  }

  /**
    The dict has one key per package that occurs in `rs`, and each key maps to the
    operator and version of the last tuple with that package.
   */
  lemma {:induction false} ToDictLastWins(rs: seq<Requirement>)
    ensures forall j :: 0 <= j < |rs| ==> rs[j].pkg in ToDict(rs)
    ensures forall k :: k in ToDict(rs) ==>
      exists j :: 0 <= j < |rs| && rs[j].pkg == k && LastFor(rs, j) && ToDict(rs)[k] == (rs[j].op, rs[j].ver)
  {
    ToDictCovers(rs);
    ToDictFromLast(rs);
  }

  /** Every key of the dict comes from the last requirement for it. */
  lemma {:induction false} ToDictFromLast(rs: seq<Requirement>)
    ensures forall k :: k in ToDict(rs) ==>
      exists j :: 0 <= j < |rs| && rs[j].pkg == k && LastFor(rs, j) && ToDict(rs)[k] == (rs[j].op, rs[j].ver)
    decreases |rs|
  {
    if rs != [] {
      var init, last := rs[..|rs| - 1], rs[|rs| - 1];
      ToDictFromLast(init);
      var d := ToDict(rs);
      assert d == ToDict(init)[last.pkg := (last.op, last.ver)];
      forall k | k in d
        ensures exists j :: 0 <= j < |rs| && rs[j].pkg == k && LastFor(rs, j) && d[k] == (rs[j].op, rs[j].ver)
      {
        if k == last.pkg {
          assert LastFor(rs, |rs| - 1);
        } else {
          assert k in ToDict(init);
          var j :| 0 <= j < |init| && init[j].pkg == k && LastFor(init, j)
                   && ToDict(init)[k] == (init[j].op, init[j].ver);
          assert rs[j] == init[j];
          assert LastFor(rs, j);
        }
      }
    }
  }

  /** Every package of `rs` is a key of the dict. */
  lemma {:induction false} ToDictCovers(rs: seq<Requirement>)
    ensures forall j :: 0 <= j < |rs| ==> rs[j].pkg in ToDict(rs)
    decreases |rs|
  {
    if rs != [] {
      var init := rs[..|rs| - 1];
      ToDictCovers(init);
      forall j | 0 <= j < |init|
        ensures rs[j].pkg in ToDict(rs)
      {
        assert rs[j] == init[j];
      }
    }
  }

  /**
    `extract_version_from_comments` as written: every entry is the three groups of
    a match, and the operator is always a single character.
   */
  function ExtractVersionRequirements(script: string): (d: map<string, (string, string)>)
    ensures forall k :: k in d ==> WellFormed(Requirement(k, d[k].0, d[k].1)) && |d[k].0| == 1
  {
    var rs := FindAll(Greedy, script);
    ToDictFromLast(rs);
    ToDict(rs)
  }

  /**
    Every entry of the extracted dict comes from one match, the last one for its
    package; every match contributes its package; the operator is always exactly
    one character of `[<>=!]`, group 1 having absorbed any earlier ones.
   */
  lemma {:induction false} ExtractionEntries(script: string)
    ensures var rs := FindAll(Greedy, script);
      var d := ExtractVersionRequirements(script);
      && (forall j :: 0 <= j < |rs| ==> rs[j].pkg in d)
      && (forall k :: k in d ==>
            exists j :: 0 <= j < |rs| && rs[j].pkg == k && LastFor(rs, j) && d[k] == (rs[j].op, rs[j].ver))
      && (forall k :: k in d ==> |d[k].0| == 1 && IsOpChar(d[k].0[0]))
  {
    var rs := FindAll(Greedy, script);
    ToDictLastWins(rs);
    var d := ToDict(rs);
    forall k | k in d
      ensures |d[k].0| == 1 && IsOpChar(d[k].0[0])
    {
      var j :| 0 <= j < |rs| && rs[j].pkg == k && LastFor(rs, j) && d[k] == (rs[j].op, rs[j].ver);
      assert WellFormed(rs[j]);
    }
  }

  /**
    The scan `re.findall` makes finds exactly the leftmost non-overlapping
    matches of the pattern as Python's engine matches it, and nothing else does.
   */
  lemma {:induction false} FindAllIsLeftmost(g: Group1, s: string, ms: seq<Span>)
    ensures LeftmostNonOverlapping(MatchTable(g, s), 0, ms) <==> ms == Scan(MatchTable(g, s), 0)
  {
    var t := MatchTable(g, s);
    ScanLeftmost(t, 0);
    if LeftmostNonOverlapping(t, 0, ms) {
      LeftmostIsScan(t, 0, ms);
    }
  }

  /**
    `extract_version_from_comments` with group 1 written `(\S+?)`, as the dict's
    use as package names intends: every entry is the three groups of a match.
   */
  function ExtractIntended(script: string): (d: map<string, (string, string)>)
    ensures forall k :: k in d ==> WellFormed(Requirement(k, d[k].0, d[k].1))
  {
    var rs := FindAll(Lazy, script);
    ToDictFromLast(rs);
    ToDict(rs)
  }

  /** The start of a requirement comment in its plainest spelling. */
  const Prefix: string := "# " + Keyword + " "

  /**
    What may follow a requirement line for that line to hold the script's only
    match: nothing, or text that starts with whitespace and holds no `#`.
   */
  predicate QuietTail(post: string) {
    && (post == [] || IsSpace(post[0]))
    && forall k :: 0 <= k < |post| ==> post[k] != '#'
  }

  /** On the text `# Required: T...`, with `T` one token, the keyword and the token are where they stand. */
  lemma {:induction false} PrefixedToken(tok: string, post: string)
    requires tok != [] && NoSpace(tok, 0, |tok|)
    requires post == [] || IsSpace(post[0])
    ensures var s := Prefix + tok + post;
      && SkipSpace(s, 1) == 2 && KeywordAt(s, 2)
      && SkipSpace(s, 11) == 12 && TokenEnd(s, 12) == 12 + |tok|
  {
    var s := Prefix + tok + post;
    var e := 12 + |tok|;
    assert s == "# " + Keyword + " " + tok + post;
    assert s[2..11] == Keyword;
    assert NoSpace(s, 12, e) by {
      assert forall k :: 12 <= k < e ==> s[k] == tok[k - 12];
    }
    assert e == |s| || IsSpace(s[e]) by {
      assert e < |s| ==> s[e] == post[0];
    }
    TokenEndIs(s, 12, e);
  }

  /** A match at the start that no other `#` follows is the text's only match, and yields one tuple. */
  lemma {:induction false} SoleMatch(g: Group1, s: string, m: Span)
    requires MatchAt(g, s, 0) == Some(m)
    requires forall q :: m.end <= q < |s| ==> s[q] != '#'
    ensures FindAll(g, s) == [Groups(s, m)]
    ensures ToDict(FindAll(g, s)) == map[s[m.pkg..m.op] := (s[m.op..m.ver], s[m.ver..m.end])]
  {
    var t := MatchTable(g, s);
    assert Scan(t, m.end) == [] by {
      assert NoMatchIn(t, m.end, |t|);
      LeftmostIsScan(t, m.end, []);
    }
    assert Scan(t, 0) == [m] + Scan(t, m.end);
    assert ToDict([Groups(s, m)]) == map[][s[m.pkg..m.op] := (s[m.op..m.ver], s[m.ver..m.end])];
  }

  /** The greedy split of a token puts the operator on the last operator character before the final one. */
  lemma {:induction false} GreedySplitAt(s: string, a: nat, c: nat, e: nat)
    requires a + 1 < c < e <= |s|
    requires IsOpChar(s[c - 1])
    requires forall k :: c <= k < e - 1 ==> !IsOpChar(s[k])
    ensures SplitToken(Greedy, s, a, e) == Some((c - 1, c))
  {
    var r := LastOp(s, a + 1, e - 1);
    assert r.Some? && r.value == c - 1;
  }

  /** The lazy split of a token whose operator run `[b, c)` is its first operator character. */
  lemma {:induction false} LazySplitAt(s: string, a: nat, b: nat, c: nat, e: nat)
    requires a < b < c < e <= |s|
    requires forall k :: a <= k < b ==> !IsOpChar(s[k])
    requires AllOp(s, b, c) && !IsOpChar(s[c])
    ensures SplitToken(Lazy, s, a, e) == Some((b, c))
  {
    assert IsOpChar(s[b]);
    assert FirstOp(s, a + 1, e - 1) == Some(b);
  }

  /** The characters of `Prefix + pkg + op + ver + post`, part by part. */
  lemma {:induction false} LineParts(pkg: string, op: string, ver: string, post: string)
    ensures var s := Prefix + pkg + op + ver + post;
      var b, c := 12 + |pkg|, 12 + |pkg| + |op|;
      var e := c + |ver|;
      && |s| == e + |post|
      && (forall k :: 12 <= k < b ==> s[k] == pkg[k - 12])
      && (forall k :: b <= k < c ==> s[k] == op[k - b])
      && (forall k :: c <= k < e ==> s[k] == ver[k - c])
      && (forall k :: e <= k < |s| ==> s[k] == post[k - e])
  {
  }

  /** The three parts of the line as slices of `Prefix + pkg + op + ver + post`. */
  lemma {:induction false} LineSlices(pkg: string, op: string, ver: string, post: string)
    ensures var s := Prefix + pkg + op + ver + post;
      var b, c := 12 + |pkg|, 12 + |pkg| + |op|;
      s[12..b] == pkg && s[b..c] == op && s[c..c + |ver|] == ver
  {
    var s := Prefix + pkg + op + ver + post;
    assert |Prefix| == 12;
    assert s == Prefix + pkg + op + ver + post;
  }

  /** A tail with no `#` leaves no `#` after the requirement line. */
  lemma {:induction false} TailHasNoHash(pkg: string, op: string, ver: string, post: string)
    requires QuietTail(post)
    ensures var s := Prefix + pkg + op + ver + post;
      forall q :: |Prefix| + |pkg| + |op| + |ver| <= q < |s| ==> s[q] != '#'
  {
    LineParts(pkg, op, ver, post);
  }

  /**
    The text opens with `# Required: ` and the token after it runs over `[12, e)`:
    the `#`, the keyword and the start of group 1 are where they stand.
   */
  predicate OpensRequirement(s: string, e: nat) {
    && 12 <= e <= |s| && s[0] == '#'
    && SkipSpace(s, 1) == 2 && KeywordAt(s, 2)
    && SkipSpace(s, 11) == 12 && TokenEnd(s, 12) == e
  }

  /** As written, group 1 of the opening requirement runs up to the last operator character, at `c - 1`. */
  lemma {:induction false} GreedyLineAt(s: string, c: nat, e: nat)
    requires OpensRequirement(s, e)
    requires 13 < c < e && IsOpChar(s[c - 1])
    requires forall k :: c <= k < e - 1 ==> !IsOpChar(s[k])
    ensures MatchAt(Greedy, s, 0) == Some(Span(0, 2, 12, c - 1, c, e))
  {
    GreedySplitAt(s, 12, c, e);
    MatchAtFrom(Greedy, s, 0, 2, 12);
  }

  /**
    As written, a text whose opening requirement is followed by no `#` yields that
    one requirement: `pkg` is group 1, up to the last operator character `op`.
   */
  lemma {:induction false} GreedySole(s: string, c: nat, e: nat, pkg: string, op: string, ver: string)
    requires OpensRequirement(s, e)
    requires 13 < c < e && IsOpChar(s[c - 1])
    requires forall k :: c <= k < e - 1 ==> !IsOpChar(s[k])
    requires forall q :: e <= q < |s| ==> s[q] != '#'
    requires s[12..c - 1] == pkg && s[c - 1..c] == op && s[c..e] == ver
    ensures ExtractVersionRequirements(s) == map[pkg := (op, ver)]
  {
    GreedyLineAt(s, c, e);
    SoleMatch(Greedy, s, Span(0, 2, 12, c - 1, c, e));
  }

  /** With group 1 lazy, the opening requirement splits at its first operator run `[b, c)`. */
  lemma {:induction false} LazyLineAt(s: string, b: nat, c: nat, e: nat)
    requires OpensRequirement(s, e)
    requires 12 < b < c < e
    requires forall k :: 12 <= k < b ==> !IsOpChar(s[k])
    requires AllOp(s, b, c) && !IsOpChar(s[c])
    ensures MatchAt(Lazy, s, 0) == Some(Span(0, 2, 12, b, c, e))
  {
    LazySplitAt(s, 12, b, c, e);
    MatchAtFrom(Lazy, s, 0, 2, 12);
  }

  /** With group 1 lazy, a text whose opening requirement is followed by no `#` yields that one requirement. */
  lemma {:induction false} LazySole(s: string, b: nat, c: nat, e: nat, pkg: string, op: string, ver: string)
    requires OpensRequirement(s, e)
    requires 12 < b < c < e
    requires forall k :: 12 <= k < b ==> !IsOpChar(s[k])
    requires AllOp(s, b, c) && !IsOpChar(s[c])
    requires forall q :: e <= q < |s| ==> s[q] != '#'
    requires s[12..b] == pkg && s[b..c] == op && s[c..e] == ver
    ensures ExtractIntended(s) == map[pkg := (op, ver)]
  {
    LazyLineAt(s, b, c, e);
    SoleMatch(Lazy, s, Span(0, 2, 12, b, c, e));
  }

  /** On the script `# Required: <pkg><op><ver>` + `post`, the keyword and the token are where they stand. */
  lemma {:induction false} LineTokenBounds(pkg: string, op: string, ver: string, post: string)
    requires WellFormed(Requirement(pkg, op, ver))
    requires post == [] || IsSpace(post[0])
    ensures OpensRequirement(Prefix + pkg + op + ver + post, 12 + |pkg| + |op| + |ver|)
  {
    var tok := pkg + op + ver;
    assert NoSpace(tok, 0, |tok|) by {
      forall k | 0 <= k < |tok|
        ensures !IsSpace(tok[k])
      {
        if k < |pkg| {
          assert tok[k] == pkg[k];
        } else if k < |pkg| + |op| {
          assert tok[k] == op[k - |pkg|];
          OpIsNotSpace(tok[k]);
        } else {
          assert tok[k] == ver[k - |pkg| - |op|];
        }
      }
    }
    assert Prefix + pkg + op + ver + post == Prefix + tok + post;
    PrefixedToken(tok, post);
  }

  /**
    On `# Required: <pkg><op><ver>` + `post`, with no operator character in the
    version, the operator characters around `c = 12 + |pkg| + |op|` are as the
    greedy split needs them.
   */
  lemma {:induction false} AsWrittenParts(pkg: string, op: string, ver: string, post: string)
    requires WellFormed(Requirement(pkg, op, ver))
    requires forall k :: 0 <= k < |ver| ==> !IsOpChar(ver[k])
    requires post == [] || IsSpace(post[0])
    ensures var s := Prefix + pkg + op + ver + post;
      var c := 12 + |pkg| + |op|;
      && OpensRequirement(s, c + |ver|)
      && IsOpChar(s[c - 1])
      && forall k :: c <= k < c + |ver| - 1 ==> !IsOpChar(s[k])
  {
    var s := Prefix + pkg + op + ver + post;
    var c := 12 + |pkg| + |op|;
    LineTokenBounds(pkg, op, ver, post);
    LineParts(pkg, op, ver, post);
    assert s[c - 1] == op[|op| - 1];
  }

  /**
    As written, on the script `# Required: <pkg><op><ver>` + `post` with no
    operator character in the version, group 1 runs up to the last operator character.
   */
  lemma {:induction false} AsWrittenLineMatch(pkg: string, op: string, ver: string, post: string)
    requires WellFormed(Requirement(pkg, op, ver))
    requires forall k :: 0 <= k < |ver| ==> !IsOpChar(ver[k])
    requires post == [] || IsSpace(post[0])
    ensures var s := Prefix + pkg + op + ver + post;
      var c := 12 + |pkg| + |op|;
      MatchAt(Greedy, s, 0) == Some(Span(0, 2, 12, c - 1, c, c + |ver|))
  {
    AsWrittenParts(pkg, op, ver, post);
    GreedyLineAt(Prefix + pkg + op + ver + post, 12 + |pkg| + |op|, 12 + |pkg| + |op| + |ver|);
  }

  /** The three groups of the as-written match, as parts of the script. */
  lemma {:induction false} AsWrittenGroups(pkg: string, op: string, ver: string, post: string)
    requires op != []
    ensures var s := Prefix + pkg + op + ver + post;
      var c := 12 + |pkg| + |op|;
      && s[12..c - 1] == pkg + op[..|op| - 1]
      && s[c - 1..c] == op[|op| - 1..]
      && s[c..c + |ver|] == ver
  {
    var line := Prefix + pkg + op;
    var s := line + ver + post;
    var c := 12 + |pkg| + |op|;
    assert s[..c] == line;
    assert s[c..c + |ver|] == ver;
    assert line[12..] == pkg + op;
    assert (pkg + op)[..|pkg| + |op| - 1] == pkg + op[..|op| - 1];
    assert s[12..c - 1] == line[12..][..|pkg| + |op| - 1];
    assert s[c - 1..c] == [op[|op| - 1]];
  }

  /**
    As written, a script that opens with `# Required: <pkg><op><ver>`, with no
    operator character in the version and no further `#`, yields the package
    `pkg` followed by all but the last operator character, with that last
    character as the operator.
   */
  lemma {:induction false} AsWrittenExtraction(pkg: string, op: string, ver: string, post: string)
    requires WellFormed(Requirement(pkg, op, ver))
    requires forall k :: 0 <= k < |ver| ==> !IsOpChar(ver[k])
    requires QuietTail(post)
    ensures ExtractVersionRequirements(Prefix + pkg + op + ver + post)
            == map[pkg + op[..|op| - 1] := (op[|op| - 1..], ver)]
  {
    var s := Prefix + pkg + op + ver + post;
    var c := 12 + |pkg| + |op|;
    var e := c + |ver|;
    AsWrittenParts(pkg, op, ver, post);
    TailHasNoHash(pkg, op, ver, post);
    AsWrittenGroups(pkg, op, ver, post);
    GreedySole(s, c, e, pkg + op[..|op| - 1], op[|op| - 1..], ver);
  }

  /** As written, a script opening with `# Required: numpy>=1.2` yields the package `numpy>` with operator `=`. */
  lemma {:induction false} NumpyExample(post: string)
    requires QuietTail(post)
    ensures ExtractVersionRequirements(Prefix + "numpy" + ">=" + "1.2" + post) == map["numpy>" := ("=", "1.2")]
  {
    AsWrittenExtraction("numpy", ">=", "1.2", post);
    assert "numpy" + ">=" [..1] == "numpy>";
    assert ">=" [1..] == "=";
  }

  /**
    As written, no requirement with a two-character operator survives extraction:
    `# Required: <pkg><op><ver>` never yields `pkg -> (op, ver)` when `|op| >= 2`.
   */
  lemma {:induction false} GreedyLosesLongOperators(pkg: string, op: string, ver: string)
    requires |op| >= 2
    ensures ExtractVersionRequirements(Prefix + pkg + op + ver) != map[pkg := (op, ver)]
  {
    var d := ExtractVersionRequirements(Prefix + pkg + op + ver);
    ExtractionEntries(Prefix + pkg + op + ver);
    assert pkg in d ==> d[pkg].0 != op;
  }

  /**
    On `# Required: <pkg><op><ver>` + `post`, with no operator character in the
    package and none starting the version, the operator run is exactly `op`.
   */
  lemma {:induction false} IntendedParts(pkg: string, op: string, ver: string, post: string)
    requires WellFormed(Requirement(pkg, op, ver))
    requires forall k :: 0 <= k < |pkg| ==> !IsOpChar(pkg[k])
    requires !IsOpChar(ver[0])
    requires post == [] || IsSpace(post[0])
    ensures var s := Prefix + pkg + op + ver + post;
      var b, c := 12 + |pkg|, 12 + |pkg| + |op|;
      && OpensRequirement(s, c + |ver|)
      && (forall k :: 12 <= k < b ==> !IsOpChar(s[k]))
      && AllOp(s, b, c) && !IsOpChar(s[c])
  {
    var s := Prefix + pkg + op + ver + post;
    var c := 12 + |pkg| + |op|;
    LineTokenBounds(pkg, op, ver, post);
    LineParts(pkg, op, ver, post);
    assert s[c] == ver[0];
  }

  /** With group 1 lazy, the script `# Required: <pkg><op><ver>` + `post` is matched along the line's three parts. */
  lemma {:induction false} IntendedLineMatch(pkg: string, op: string, ver: string, post: string)
    requires WellFormed(Requirement(pkg, op, ver))
    requires forall k :: 0 <= k < |pkg| ==> !IsOpChar(pkg[k])
    requires !IsOpChar(ver[0])
    requires post == [] || IsSpace(post[0])
    ensures var s := Prefix + pkg + op + ver + post;
      var c := 12 + |pkg| + |op|;
      MatchAt(Lazy, s, 0) == Some(Span(0, 2, 12, 12 + |pkg|, c, c + |ver|))
  {
    IntendedParts(pkg, op, ver, post);
    LazyLineAt(Prefix + pkg + op + ver + post, 12 + |pkg|, 12 + |pkg| + |op|, 12 + |pkg| + |op| + |ver|);
  }

  /**
    With group 1 lazy, a requirement written `# Required: <pkg><op><ver>` at the
    start of a script with no further `#` is extracted as written:
    `pkg -> (op, ver)`, whenever the package holds no operator character and the
    version does not start with one.
   */
  lemma {:induction false} IntendedRoundTrip(pkg: string, op: string, ver: string, post: string)
    requires WellFormed(Requirement(pkg, op, ver))
    requires forall k :: 0 <= k < |pkg| ==> !IsOpChar(pkg[k])
    requires !IsOpChar(ver[0])
    requires QuietTail(post)
    ensures ExtractIntended(Prefix + pkg + op + ver + post) == map[pkg := (op, ver)]
  {
    var s := Prefix + pkg + op + ver + post;
    var b, c := 12 + |pkg|, 12 + |pkg| + |op|;
    var e := c + |ver|;
    IntendedParts(pkg, op, ver, post);
    TailHasNoHash(pkg, op, ver, post);
    LineSlices(pkg, op, ver, post);
    LazySole(s, b, c, e, pkg, op, ver);
  }
}

=== FILE: retry.dfy ===
/**
  `install_with_retry`: run the package installer up to `retries` times, stop at
  the first success, classify every failure by its exit code, back off `2^k`
  seconds after failed attempt `k`, and report once when every attempt failed.

  The installer subprocess is an oracle `exitCode` from the 0-based attempt number
  to the installer's exit code (0 is success). The function's observable effects
  are recorded as a trace of attempts; the sleep is recorded as its duration.
 */
module Retry {

  /** The four failure classes the loop distinguishes, each with its own advice message. */
  datatype FailureClass =
    | Generic             // exit code 1: check the network connection or the pip version
    | OutdatedPip         // exit code 2: upgrade pip
    | DependencyConflict  // exit code 3: try a virtual environment
    | Unknown             // any other nonzero code

  /** What one installer invocation led to. */
  datatype Attempt =
    | Installed
    | Failed(code: int, kind: FailureClass, backoff: nat, gaveUp: bool)

  /** `attempts[k]` is the record of the installer invocation numbered `k`. */
  datatype Trace = Trace(attempts: seq<Attempt>)

  /** The exit-code dispatch of the failure handler. */
  function Classify(code: int): (c: FailureClass)
    requires code != 0
    ensures c == Generic <==> code == 1
    ensures c == OutdatedPip <==> code == 2
    ensures c == DependencyConflict <==> code == 3
    ensures c == Unknown <==> code !in {1, 2, 3}
  {
    if code == 1 then Generic
    else if code == 2 then OutdatedPip
    else if code == 3 then DependencyConflict
    else Unknown
  }

  /** `2 ** k` */
  function Pow2(k: nat): (r: nat)
    ensures r >= 1
  {
    if k == 0 then 1 else 2 * Pow2(k - 1)
  }

  /** The loop from attempt number `k` on, as `for attempt in range(retries)` runs it. */
  function Loop(retries: int, exitCode: nat -> int, k: nat): (t: seq<Attempt>)
    ensures k < retries ==> |t| <= retries - k
    ensures k >= retries ==> t == []
    ensures forall i :: 0 <= i < |t| - 1 ==> t[i].Failed?
    decreases retries - k
  {
    if k >= retries then []
    else if exitCode(k) == 0 then [Installed]
    else
      var code := exitCode(k);
      [Failed(code, Classify(code), Pow2(k), k == retries - 1)] + Loop(retries, exitCode, k + 1)
  }

  /**
    `install_with_retry(package, retries)`: at most `retries` attempts, at least one
    when `retries` is positive, and attempt `i` is recorded as the success exactly
    when the installer's exit code for it is 0.
   */
  function InstallWithRetry(retries: int, exitCode: nat -> int): (r: Trace)
    ensures |r.attempts| <= (if retries <= 0 then 0 else retries)
    ensures retries > 0 ==> r.attempts != []
    ensures forall i {:trigger r.attempts[i]} :: 0 <= i < |r.attempts| ==> (r.attempts[i] == Installed <==> exitCode(i) == 0)
  {
    LoopRecords(retries, exitCode, 0);
    LoopStops(retries, exitCode, 0);
    Trace(Loop(retries, exitCode, 0))
  }

  /** The attempt numbers below `n` all failed. */
  ghost predicate AllFailedBelow(exitCode: nat -> int, n: int) {
    forall k: nat :: k < n ==> exitCode(k) != 0
  }

  /** The number of records in `t` that carry the final "failed after N attempts" report. */
  function Reports(t: seq<Attempt>): nat {
    if t == [] then 0 else (if t[0].Failed? && t[0].gaveUp then 1 else 0) + Reports(t[1..])
  }

  /**
    `a` is what attempt `n` leads to: it is within the budget, and it is either
    the success that ends the loop or a failure classified with its own code,
    followed by a `2^n`-second sleep, that gives up when it is the last one.
   */
  ghost predicate OutcomeOf(retries: int, exitCode: nat -> int, n: nat, a: Attempt) {
    && n < retries
    && if exitCode(n) == 0 then a == Installed
       else a == Failed(exitCode(n), Classify(exitCode(n)), Pow2(n), n == retries - 1)
  }

  /** Record `i` of the loop started at attempt `k` is the outcome of attempt `k + i`. */
  lemma {:induction false} LoopRecords(retries: int, exitCode: nat -> int, k: nat)
    ensures forall i :: 0 <= i < |Loop(retries, exitCode, k)| ==>
      OutcomeOf(retries, exitCode, k + i, Loop(retries, exitCode, k)[i])
    decreases retries - k
  {
    if k < retries && exitCode(k) != 0 {
      LoopRecords(retries, exitCode, k + 1);
      var t := Loop(retries, exitCode, k);
      var rest := Loop(retries, exitCode, k + 1);
      forall i | 0 < i < |t|
        ensures OutcomeOf(retries, exitCode, k + i, t[i])
      {
        var j := i - 1;
        assert t[i] == rest[j];
        assert OutcomeOf(retries, exitCode, (k + 1) + j, rest[j]);
      }
    }
  }

  /**
    The loop started at attempt `k` stops at the first success or when the budget
    is spent: every record but the last is a failure, and when a record is last
    while budget remains, its attempt succeeded.
   */
  lemma {:induction false} LoopStops(retries: int, exitCode: nat -> int, k: nat)
    ensures var t := Loop(retries, exitCode, k);
      k < retries ==> t != [] && (k + |t| == retries || exitCode(k + |t| - 1) == 0)
    decreases retries - k
  {
    if k < retries && exitCode(k) != 0 {
      LoopStops(retries, exitCode, k + 1);
    }
  }

  /** The backoff durations slept, in order. */
  function Sleeps(t: seq<Attempt>): seq<nat> {
    if t == [] then [] else (if t[0].Failed? then [t[0].backoff] else []) + Sleeps(t[1..])
  }

  /** The loop started at attempt `k` sleeps once per record, except after a final success. */
  lemma {:induction false} LoopSleepCount(retries: int, exitCode: nat -> int, k: nat)
    ensures var t := Loop(retries, exitCode, k);
      |Sleeps(t)| == (if t != [] && t[|t| - 1] == Installed then |t| - 1 else |t|)
    decreases retries - k
  {
    if k < retries && exitCode(k) != 0 {
      LoopSleepCount(retries, exitCode, k + 1);
      var t := Loop(retries, exitCode, k);
      var rest := Loop(retries, exitCode, k + 1);
      assert t[1..] == rest;
      assert Sleeps(t) == [Pow2(k)] + Sleeps(rest);
      if rest != [] {
        assert t[|t| - 1] == rest[|rest| - 1];
      }
    }
  }

  /** The loop started at attempt `k` sleeps `2^(k+i)` after its `i`-th record. */
  lemma {:induction false} LoopSleepValues(retries: int, exitCode: nat -> int, k: nat)
    ensures forall i :: 0 <= i < |Sleeps(Loop(retries, exitCode, k))|
              ==> Sleeps(Loop(retries, exitCode, k))[i] == Pow2(k + i)
    decreases retries - k
  {
    if k < retries && exitCode(k) != 0 {
      LoopSleepValues(retries, exitCode, k + 1);
      var t := Loop(retries, exitCode, k);
      var rest := Loop(retries, exitCode, k + 1);
      assert t[1..] == rest;
      var s, r := Sleeps(t), Sleeps(rest);
      assert s == [Pow2(k)] + r;
      forall i | 0 < i < |s|
        ensures s[i] == Pow2(k + i)
      {
        assert s[i] == r[i - 1];
        assert r[i - 1] == Pow2((k + 1) + (i - 1));
      }
    }
  }

  /** The loop started at attempt `k` reports giving up once if attempts `k .. retries-1` all fail, else never. */
  lemma {:induction false} LoopReports(retries: int, exitCode: nat -> int, k: nat)
    ensures Reports(Loop(retries, exitCode, k))
            == if k < retries && forall n :: k <= n < retries ==> exitCode(n) != 0 then 1 else 0
    decreases retries - k
  {
    if k < retries && exitCode(k) != 0 {
      LoopReports(retries, exitCode, k + 1);
      var t := Loop(retries, exitCode, k);
      assert t[1..] == Loop(retries, exitCode, k + 1);
      if k + 1 < retries {
        assert (forall n :: k <= n < retries ==> exitCode(n) != 0)
           <==> (forall n :: k + 1 <= n < retries ==> exitCode(n) != 0);
      }
    }
  }

  /**
    At most `retries` installer invocations are made (none when `retries <= 0`),
    invocation `i` is attempt `i` and each failure is classified once by its own
    exit code, and the loop stops at the first success or at the budget.
   */
  lemma {:induction false} RetryAttempts(retries: int, exitCode: nat -> int)
    ensures var a := InstallWithRetry(retries, exitCode).attempts;
      && |a| <= (if retries <= 0 then 0 else retries)
      && (forall i :: 0 <= i < |a| ==> OutcomeOf(retries, exitCode, i, a[i]))
      && (forall i :: 0 <= i < |a| - 1 ==> exitCode(i) != 0)
      && (retries > 0 ==> a != [] && (|a| == retries || exitCode(|a| - 1) == 0))
  {
    var a := InstallWithRetry(retries, exitCode).attempts;
    LoopRecords(retries, exitCode, 0);
    LoopStops(retries, exitCode, 0);
    forall i | 0 <= i < |a| - 1
      ensures exitCode(i) != 0
    {
      assert a[i].Failed? && OutcomeOf(retries, exitCode, 0 + i, a[i]);
    }
  }

  /**
    The backoff after failed attempt `k` is `2^k`, the last failure included:
    `n` failures sleep 1, 2, 4, ..., `2^(n-1)` seconds, and a success is not
    followed by a sleep.
   */
  lemma {:induction false} RetryBackoff(retries: int, exitCode: nat -> int)
    ensures var a := InstallWithRetry(retries, exitCode).attempts;
      var s := Sleeps(a);
      && |s| == (if a != [] && a[|a| - 1] == Installed then |a| - 1 else |a|)
      && (s != [] ==> s[0] == 1)
      && forall i :: 0 <= i < |s| - 1 ==> s[i + 1] == 2 * s[i]
  {
    assert InstallWithRetry(retries, exitCode).attempts == Loop(retries, exitCode, 0);
    LoopBackoff(retries, exitCode);
  }

  /** RetryBackoff stated over the loop itself. */
  lemma {:induction false} LoopBackoff(retries: int, exitCode: nat -> int)
    ensures var a := Loop(retries, exitCode, 0);
      var s := Sleeps(a);
      && |s| == (if a != [] && a[|a| - 1] == Installed then |a| - 1 else |a|)
      && (s != [] ==> s[0] == 1)
      && forall i :: 0 <= i < |s| - 1 ==> s[i + 1] == 2 * s[i]
  {
    var s := Sleeps(Loop(retries, exitCode, 0));
    LoopSleepCount(retries, exitCode, 0);
    LoopSleepValues(retries, exitCode, 0);
    forall i | 0 <= i < |s| - 1
      ensures s[i + 1] == 2 * s[i]
    {
      assert s[i] == Pow2(0 + i) && s[i + 1] == Pow2(0 + (i + 1));
    }
  }

  /**
    The "failed after N attempts" report is made exactly once when the budget is
    positive and every attempt fails, and never otherwise.
   */
  lemma {:induction false} RetryReport(retries: int, exitCode: nat -> int)
    ensures Reports(InstallWithRetry(retries, exitCode).attempts)
            == if retries >= 1 && AllFailedBelow(exitCode, retries) then 1 else 0
  {
    LoopReports(retries, exitCode, 0);
  }

  /** An installer that always exits with 3, given three attempts: three conflicts, three sleeps, one report. */
  lemma {:induction false} AlwaysConflicting()
    ensures InstallWithRetry(3, _ => 3).attempts == [
      Failed(3, DependencyConflict, 1, false),
      Failed(3, DependencyConflict, 2, false),
      Failed(3, DependencyConflict, 4, true)]
  {
  }
}

=== FILE: venv.dfy ===
/**
  The path and decision logic of `create_virtualenv` and `install_dependencies`.
  The file system and the two subprocesses are oracles: `Env` says which paths
  exist before the call, which exist once `python -m venv` has run, and the exit
  codes of the venv creation and of `pip install`. The popups are recorded as
  actions, without their text beyond the path they show; the log lines are not
  modelled.
 */
module Venv {
  import opened Optional

  /** The two values of `os.name` the code distinguishes: `nt` and everything else. */
  datatype OsFamily = Nt | Posix

  /** The separator `os.path.join` inserts. */
  function Sep(os: OsFamily): char {
    if os == Nt then '\\' else '/'
  }

  /** The characters `os.path.join` treats as separators: `/`, and on `nt` also `\`. */
  predicate IsSep(os: OsFamily, c: char) {
    c == '/' || (os == Nt && c == '\\')
  }

  /** A path component with no separator and no drive: it is always appended, never a restart. */
  predicate PlainName(os: OsFamily, name: string) {
    name != [] && ':' !in name && forall k :: 0 <= k < |name| ==> !IsSep(os, name[k])
  }

  /** A bare drive such as `C:`, which `ntpath.join` extends without a separator. */
  predicate IsBareDrive(os: OsFamily, path: string) {
    os == Nt && |path| == 2 && path[1] == ':' && !IsSep(os, path[0])
  }

  /**
    `os.path.join(path, name)` for a component `name` that is neither absolute
    nor drive-qualified (a `PlainName`, which every component the code joins
    is): a separator is inserted unless `path` is empty, already ends with a
    separator, or is a bare drive on `nt`.
   */
  function JoinName(os: OsFamily, path: string, name: string): (r: string)
    ensures |path| + |name| <= |r| && path <= r && r[|r| - |name|..] == name
    ensures |r| == |path| + |name| || (|r| == |path| + |name| + 1 && r[|path|] == Sep(os))
    ensures |r| == |path| + |name| + 1
            <==> path != [] && !IsSep(os, path[|path| - 1]) && !IsBareDrive(os, path)
  {
    if path == [] || IsSep(os, path[|path| - 1]) || IsBareDrive(os, path) then path + name
    else path + [Sep(os)] + name
  }

  /** The directory that holds the activation script and pip: `Scripts` on `nt`, `bin` otherwise. */
  function BinName(os: OsFamily): string {
    if os == Nt then "Scripts" else "bin"
  }

  function ActivateName(os: OsFamily): string {
    if os == Nt then "activate.bat" else "activate"
  }

  const PipName := "pip"

  lemma {:induction false} NamesArePlain(os: OsFamily)
    ensures PlainName(os, BinName(os)) && PlainName(os, ActivateName(os)) && PlainName(os, PipName)
  {
  }

  function BinDir(os: OsFamily, venvDir: string): string {
    JoinName(os, venvDir, BinName(os))
  }

  /** `os.path.join(venv_dir, 'Scripts', 'activate.bat')` on `nt`, `os.path.join(venv_dir, 'bin', 'activate')` otherwise. */
  function ActivationScript(os: OsFamily, venvDir: string): (r: string)
    ensures venvDir <= r
  {
    JoinName(os, BinDir(os, venvDir), ActivateName(os))
  }

  /** `os.path.join(venv_dir, 'Scripts', 'pip')` on `nt`, `os.path.join(venv_dir, 'bin', 'pip')` otherwise. */
  function PipPath(os: OsFamily, venvDir: string): (r: string)
    ensures venvDir <= r
  {
    JoinName(os, BinDir(os, venvDir), PipName)
  }

  /** The position of the last separator of `p`, if any. */
  function LastSep(os: OsFamily, p: string): (r: Option<nat>)
    ensures r.Some? ==> r.value < |p| && IsSep(os, p[r.value])
                        && forall k :: r.value < k < |p| ==> !IsSep(os, p[k])
    ensures r.None? ==> forall k :: 0 <= k < |p| ==> !IsSep(os, p[k])
  {
    if p == [] then None
    else if IsSep(os, p[|p| - 1]) then Some(|p| - 1)
    else LastSep(os, p[..|p| - 1])
  }

  /** The text before the last separator (empty when there is none). */
  function Parent(os: OsFamily, p: string): string {
    match LastSep(os, p)
    case None => []
    case Some(i) => p[..i]
  }

  /** The text after the last separator (all of `p` when there is none). */
  function Leaf(os: OsFamily, p: string): string {
    match LastSep(os, p)
    case None => p
    case Some(i) => p[i + 1..]
  }

  /** Appending a separator and a plain name makes that separator the last one. */
  lemma {:induction false} LastSepOfJoined(os: OsFamily, head: string, c: char, name: string)
    requires IsSep(os, c) && PlainName(os, name)
    ensures LastSep(os, head + [c] + name) == Some(|head|)
  {
    var p := head + [c] + name;
    assert IsSep(os, p[|head|]);
    forall k | |head| < k < |p|
      ensures !IsSep(os, p[k])
    {
      assert p[k] == name[k - |head| - 1];
    }
  }

  /** Joining a plain name onto a path that needs a separator: the path is the parent, the name the leaf. */
  lemma {:induction false} JoinedParentLeaf(os: OsFamily, path: string, name: string)
    requires PlainName(os, name)
    requires path != [] && !IsSep(os, path[|path| - 1]) && !IsBareDrive(os, path)
    ensures Parent(os, JoinName(os, path, name)) == path
    ensures Leaf(os, JoinName(os, path, name)) == name
  {
    var p := path + [Sep(os)] + name;
    assert JoinName(os, path, name) == p;
    LastSepOfJoined(os, path, Sep(os), name);
    assert p[..|path|] == path;
    assert p[|path| + 1..] == name;
  }

  /** The `Scripts`/`bin` directory ends in its plain name, so the next join inserts a separator. */
  lemma {:induction false} BinDirNeedsSep(os: OsFamily, venvDir: string)
    ensures var bin := BinDir(os, venvDir);
      bin != [] && !IsSep(os, bin[|bin| - 1]) && !IsBareDrive(os, bin)
  {
    NamesArePlain(os);
    var name := BinName(os);
    var bin := BinDir(os, venvDir);
    assert bin[|bin| - |name|..] == name;
    assert bin[|bin| - 1] == name[|name| - 1];
  }

  /**
    The activation script and pip sit side by side in the `Scripts` or `bin`
    directory of `venv_dir`: each path is that directory, a separator and its
    own file name, whatever `venv_dir` is.
   */
  lemma {:induction false} ScriptAndPipAreSiblings(os: OsFamily, venvDir: string)
    ensures Parent(os, ActivationScript(os, venvDir)) == BinDir(os, venvDir)
    ensures Parent(os, PipPath(os, venvDir)) == BinDir(os, venvDir)
    ensures Leaf(os, ActivationScript(os, venvDir)) == ActivateName(os)
    ensures Leaf(os, PipPath(os, venvDir)) == PipName
  {
    NamesArePlain(os);
    BinDirNeedsSep(os, venvDir);
    JoinedParentLeaf(os, BinDir(os, venvDir), ActivateName(os));
    JoinedParentLeaf(os, BinDir(os, venvDir), PipName);
  }

  /**
    The `Scripts`/`bin` directory is a child of `venv_dir`, except that on `nt`
    a bare drive such as `C:` is joined without a separator.
   */
  lemma {:induction false} BinDirIsChild(os: OsFamily, venvDir: string)
    ensures venvDir <= BinDir(os, venvDir)
    ensures !IsBareDrive(os, venvDir) ==> Leaf(os, BinDir(os, venvDir)) == BinName(os)
    ensures venvDir != [] && !IsSep(os, venvDir[|venvDir| - 1]) && !IsBareDrive(os, venvDir)
            ==> Parent(os, BinDir(os, venvDir)) == venvDir
  {
    NamesArePlain(os);
    var name := BinName(os);
    if venvDir == [] {
      assert BinDir(os, venvDir) == name;
      assert LastSep(os, name) == None;
    } else if IsSep(os, venvDir[|venvDir| - 1]) {
      var head, c := venvDir[..|venvDir| - 1], venvDir[|venvDir| - 1];
      var p := head + [c] + name;
      assert BinDir(os, venvDir) == p by {
        assert venvDir == head + [c];
      }
      LastSepOfJoined(os, head, c, name);
      assert p[|head| + 1..] == name;
    } else if !IsBareDrive(os, venvDir) {
      JoinedParentLeaf(os, venvDir, name);
    }
  }

  /** The default dependency list `['requests', 'flask']`, used when none is given. */
  function Dependencies(dependencies: Option<seq<string>>): seq<string> {
    match dependencies
    case None => ["requests", "flask"]
    case Some(deps) => deps
  }

  /** The observable steps of `create_virtualenv`. */
  datatype Action =
    | CreateVenv(dir: string)                 // `python -m venv venv_dir`
    | ScriptMissingPopup(script: string)      // the "Error" popup for a missing activation script
    | RunPip(argv: seq<string>)               // `pip_path install dep...`
    | InstallErrorPopup                       // the "Installation Error" popup
    | InstructionsPopup(script: string)       // the activation instructions

  /** How the call ends: it returns, or the venv creation's `CalledProcessError` escapes it. */
  datatype Outcome = Returned | Raised

  datatype Run = Run(actions: seq<Action>, outcome: Outcome)

  /**
    The environment as the code sees it: `os.path.exists` before anything is
    done, `os.path.exists` once `python -m venv` has run, and the exit codes of
    the two subprocesses.
   */
  datatype Env = Env(existsBefore: string -> bool, existsAfterVenv: string -> bool, venvExit: int, pipExit: int)

  /**
    Whether the activation-script check finds `script`: it looks at the file
    system as the creation step left it.
   */
  predicate ScriptFound(venvDir: string, script: string, env: Env) {
    if env.existsBefore(venvDir) then env.existsBefore(script) else env.existsAfterVenv(script)
  }

  /** `install_dependencies` with pip at `pip`: one pip run, then an error popup when pip fails. */
  function InstallDependencies(pip: string, deps: seq<string>, pipExit: int): (acts: seq<Action>)
    ensures 1 <= |acts| <= 2 && acts[0].RunPip?
    ensures |acts[0].argv| >= 2 && acts[0].argv[0] == pip && acts[0].argv[1] == "install"
            && acts[0].argv[2..] == deps
    ensures |acts| == 2 <==> pipExit != 0
    ensures |acts| == 2 ==> acts[1] == InstallErrorPopup
  {
    [RunPip([pip, "install"] + deps)] + (if pipExit != 0 then [InstallErrorPopup] else [])
  }

  /** The creation step: `python -m venv venv_dir` when the directory is missing. */
  function Creation(venvDir: string, env: Env): seq<Action> {
    if env.existsBefore(venvDir) then [] else [CreateVenv(venvDir)]
  }

  /** Some step runs pip. */
  predicate RunsPip(acts: seq<Action>) {
    exists i :: 0 <= i < |acts| && acts[i].RunPip?
  }

  /** Every pip run has the command line `argv`. */
  predicate PipArgvIs(acts: seq<Action>, argv: seq<string>) {
    forall i :: 0 <= i < |acts| && acts[i].RunPip? ==> acts[i].argv == argv
  }

  /**
    What `create_virtualenv` does once the creation step has succeeded or been
    skipped, given whether the activation script was found.
   */
  function AfterCreation(script: string, pip: string, found: bool, installDeps: bool,
                         deps: seq<string>, pipExit: int): (acts: seq<Action>)
    ensures |acts| >= 1 && forall i :: 0 <= i < |acts| ==> !acts[i].CreateVenv?
    ensures !found ==> acts == [ScriptMissingPopup(script)]
    ensures found ==> acts[|acts| - 1] == InstructionsPopup(script)
    ensures RunsPip(acts) <==> installDeps && found
    ensures PipArgvIs(acts, [pip, "install"] + deps)
    ensures InstallErrorPopup in acts <==> installDeps && found && pipExit != 0
    // once the script is found: the optional install, then one instructions popup, and nothing else
    ensures ScriptMissingPopup(script) in acts <==> !found
    ensures found ==> acts == (if installDeps then InstallDependencies(pip, deps, pipExit) else [])
                              + [InstructionsPopup(script)]
  {
    if !found then [ScriptMissingPopup(script)]
    else if !installDeps then [InstructionsPopup(script)]
    else
      var install := InstallDependencies(pip, deps, pipExit);
      var acts := install + [InstructionsPopup(script)];
      assert acts[0] == install[0] && acts[|acts| - 1] == InstructionsPopup(script);
      assert |install| == 2 ==> acts[1] == InstallErrorPopup;
      acts
  }

  /**
    The steps of `create_virtualenv` for a venv whose activation script is
    `script` and whose pip is `pip`, with the dependency list `deps`.
   */
  function Steps(venvDir: string, script: string, pip: string, installDeps: bool,
                 deps: seq<string>, env: Env): (r: Run)
    // creation happens exactly when the directory is missing, and comes first
    ensures CreateVenv(venvDir) in r.actions <==> !env.existsBefore(venvDir)
    ensures forall i :: 0 < i < |r.actions| ==> !r.actions[i].CreateVenv?
    // a failed creation escapes, and nothing follows it
    ensures r.outcome == Raised <==> !env.existsBefore(venvDir) && env.venvExit != 0
    ensures r.outcome == Raised ==> r.actions == [CreateVenv(venvDir)]
  {
    var create := Creation(venvDir, env);
    if !env.existsBefore(venvDir) && env.venvExit != 0 then Run(create, Raised)
    else
      var after := AfterCreation(script, pip, ScriptFound(venvDir, script, env), installDeps, deps, env.pipExit);
      Run(create + after, Returned)
  }

  /** Venv creations in front of a run of steps change nothing about pip or its error popup. */
  lemma {:induction false} CreationInFront(create: seq<Action>, after: seq<Action>, argv: seq<string>)
    requires forall i :: 0 <= i < |create| ==> create[i].CreateVenv?
    ensures RunsPip(create + after) <==> RunsPip(after)
    ensures PipArgvIs(create + after, argv) <==> PipArgvIs(after, argv)
    ensures InstallErrorPopup in create + after <==> InstallErrorPopup in after
  {
    var acts := create + after;
    assert forall i :: 0 <= i < |after| ==> acts[|create| + i] == after[i];
    assert forall i :: |create| <= i < |acts| ==> acts[i] == after[i - |create|];
    if RunsPip(acts) {
      var i :| 0 <= i < |acts| && acts[i].RunPip?;
      assert after[i - |create|].RunPip?;
    }
    if InstallErrorPopup in acts {
      var i :| 0 <= i < |acts| && acts[i] == InstallErrorPopup;
      assert after[i - |create|] == InstallErrorPopup;
    }
  }

  /**
    Once the directory is in place: a missing activation script is reported and
    ends the call; otherwise the instructions are the last thing shown. pip runs
    exactly when dependencies were asked for and the script was found, always as
    `pip install deps...`, and its failure is reported by its own popup.
   */
  lemma {:induction false} StepsAfterCreation(venvDir: string, script: string, pip: string, installDeps: bool,
                                              deps: seq<string>, env: Env)
    ensures var r := Steps(venvDir, script, pip, installDeps, deps, env);
            && (r.outcome == Returned && !ScriptFound(venvDir, script, env)
                ==> r.actions == Creation(venvDir, env) + [ScriptMissingPopup(script)])
            && (r.outcome == Returned && ScriptFound(venvDir, script, env)
                ==> |r.actions| >= 1 && r.actions[|r.actions| - 1] == InstructionsPopup(script))
            && (RunsPip(r.actions) <==> installDeps && r.outcome == Returned && ScriptFound(venvDir, script, env))
            && PipArgvIs(r.actions, [pip, "install"] + deps)
            && (InstallErrorPopup in r.actions
                <==> installDeps && r.outcome == Returned && ScriptFound(venvDir, script, env) && env.pipExit != 0)
    ensures var r := Steps(venvDir, script, pip, installDeps, deps, env);
            && (ScriptMissingPopup(script) in r.actions <==> r.outcome == Returned && !ScriptFound(venvDir, script, env))
            && (r.outcome == Returned && ScriptFound(venvDir, script, env)
                ==> r.actions == Creation(venvDir, env)
                                 + (if installDeps then InstallDependencies(pip, deps, env.pipExit) else [])
                                 + [InstructionsPopup(script)])
  {
    var r := Steps(venvDir, script, pip, installDeps, deps, env);
    var create := Creation(venvDir, env);
    if r.outcome == Returned {
      var after := AfterCreation(script, pip, ScriptFound(venvDir, script, env), installDeps, deps, env.pipExit);
      assert r.actions == create + after;
      CreationInFront(create, after, [pip, "install"] + deps);
      assert ScriptMissingPopup(script) !in create;
    } else {
      assert r.actions == [CreateVenv(venvDir)];
    }
  }

  /** Every pip run of `Steps` is `pip install deps...`, for any script and pip path. */
  lemma {:induction false} StepsPipArgv(venvDir: string, script: string, pip: string, installDeps: bool,
                                         deps: seq<string>, env: Env)
    ensures PipArgvIs(Steps(venvDir, script, pip, installDeps, deps, env).actions, [pip, "install"] + deps)
  {
    StepsAfterCreation(venvDir, script, pip, installDeps, deps, env);
  }

  /**
    `create_virtualenv(venv_dir, install_deps, dependencies)` on `os`, in `env`:
    the activation script and pip are found where `ActivationScript` and
    `PipPath` put them, and the dependencies default to `requests` and `flask`.
   */
  function CreateVirtualenv(os: OsFamily, venvDir: string, installDeps: bool,
                            dependencies: Option<seq<string>>, env: Env): (r: Run)
    ensures CreateVenv(venvDir) in r.actions <==> !env.existsBefore(venvDir)
    ensures r.outcome == Raised <==> !env.existsBefore(venvDir) && env.venvExit != 0
    ensures PipArgvIs(r.actions, [PipPath(os, venvDir), "install"] + Dependencies(dependencies))
  {
    StepsPipArgv(venvDir, ActivationScript(os, venvDir), PipPath(os, venvDir), installDeps,
                  Dependencies(dependencies), env);
    Steps(venvDir, ActivationScript(os, venvDir), PipPath(os, venvDir), installDeps, Dependencies(dependencies), env)
  }

  /**
    A pip failure is reported by its own popup and does not stop the call: the
    activation instructions still follow.
   */
  lemma {:induction false} PipFailureStillInstructs(venvDir: string, script: string, pip: string,
                                                    deps: seq<string>, env: Env)
    requires env.existsBefore(venvDir) || env.venvExit == 0
    requires ScriptFound(venvDir, script, env) && env.pipExit != 0
    ensures var r := Steps(venvDir, script, pip, true, deps, env);
            InstallErrorPopup in r.actions && r.outcome == Returned
            && r.actions[|r.actions| - 1] == InstructionsPopup(script)
  {
    var after := AfterCreation(script, pip, true, true, deps, env.pipExit);
    var r := Steps(venvDir, script, pip, true, deps, env);
    assert r.actions == Creation(venvDir, env) + after;
  }

  /**
    A second call on the directory a first call created does not create it
    again, whatever the first call went on to do.
   */
  lemma {:induction false} CreatedOnce(os: OsFamily, venvDir: string, installDeps: bool,
                                       dependencies: Option<seq<string>>, env: Env, next: Env)
    requires !env.existsBefore(venvDir) && env.venvExit == 0 && env.existsAfterVenv(venvDir)
    requires next.existsBefore(venvDir) == env.existsAfterVenv(venvDir)
    ensures CreateVenv(venvDir) in CreateVirtualenv(os, venvDir, installDeps, dependencies, env).actions
    ensures CreateVenv(venvDir) !in CreateVirtualenv(os, venvDir, installDeps, dependencies, next).actions
  {
  }

  /**
    With no dependency list, `install_deps=True` runs the venv's pip as
    `pip install requests flask`.
   */
  lemma {:induction false} DefaultDependencies(venvDir: string, script: string, pip: string, env: Env)
    requires env.existsBefore(venvDir) || env.venvExit == 0
    requires ScriptFound(venvDir, script, env)
    ensures var r := Steps(venvDir, script, pip, true, Dependencies(None), env);
            RunsPip(r.actions) && PipArgvIs(r.actions, [pip, "install", "requests", "flask"])
  {
    StepsAfterCreation(venvDir, script, pip, true, Dependencies(None), env);
    assert [pip, "install"] + ["requests", "flask"] == [pip, "install", "requests", "flask"];
  }

  /**
    For a directory name with no trailing separator, such as the default `venv`,
    the activation script is `venv_dir/bin/activate` (`venv_dir\Scripts\activate.bat`
    on `nt`) and pip is `venv_dir/bin/pip` (`venv_dir\Scripts\pip`).
   */
  lemma {:induction false} PlainDirectoryLayout(os: OsFamily, venvDir: string)
    requires venvDir != [] && !IsSep(os, venvDir[|venvDir| - 1]) && !IsBareDrive(os, venvDir)
    ensures ActivationScript(os, venvDir) == venvDir + [Sep(os)] + BinName(os) + [Sep(os)] + ActivateName(os)
    ensures PipPath(os, venvDir) == venvDir + [Sep(os)] + BinName(os) + [Sep(os)] + PipName
  {
    NamesArePlain(os);
    var bin := BinDir(os, venvDir);
    assert bin == venvDir + [Sep(os)] + BinName(os);
    assert bin != [] && !IsSep(os, bin[|bin| - 1]) && !IsBareDrive(os, bin);
  }

  /** A bare drive is joined without a separator: `C:` gives `C:Scripts\activate.bat`. */
  lemma {:induction false} BareDriveLayout(os: OsFamily, venvDir: string)
    requires IsBareDrive(os, venvDir)
    ensures ActivationScript(os, venvDir) == venvDir + BinName(os) + [Sep(os)] + ActivateName(os)
  {
    NamesArePlain(os);
    var bin := BinDir(os, venvDir);
    assert bin == venvDir + BinName(os);
    assert bin != [] && !IsSep(os, bin[|bin| - 1]) && !IsBareDrive(os, bin);
  }
}
